=== FILE: README.md ===
# phpspec code-coverage listener — a Dafny model

This project models `CodeCoverageListener`, the phpspec event subscriber that
connects a spec run to php-code-coverage. The listener has four handlers:

- **`beforeSuite`** builds the coverage filter. It turns the blacklist into a
  PHP array of excluded paths, enumerates every whitelist directory against
  that array, and calls `includeFile` for each file the enumeration returns.
- **`beforeExample`** starts coverage collection under the example's
  identifier, `Class::method`.
- **`afterExample`** stops coverage collection.
- **`afterSuite`** runs every configured report renderer.

The model also covers three other parts of the class: the constructor's
default options, `setOptions` (PHP's key-wise array union), and
`filterDirectoryParams`, which normalises a directory specification or throws
a `ConfigurationException`. Last, it covers the event table returned by
`getSubscribedEvents`.

The model records each handler's effect on its collaborators as a list of
calls (`Filter`, `IncludeFile`, `Start`, `Stop`, `ProcessText`, `Process`,
`WriteLn`), plus the configuration error the handler ended with, if any. The
flags `isVerbose` and `isDecorated` become inputs. The file enumerator
`getFilesAsArray` becomes an uninterpreted function parameter.

PHP arrays are ordered sequences of entries with integer or string keys.
Each array operation follows PHP's own rules:

- **Array union `+`:** the left operand wins on a shared key.
- **Append `$a[] = v`:** the new key is one past the largest integer key.
- **`empty()`, `??`, `gettype()`:** modelled as in PHP for the value types the model has (no floats). `gettype` names a resource "resource", or "resource (closed)" once it is closed.
- **`strtr` with a replacement array:** at each position the longest key is
  replaced, and replaced text is never rescanned.

Modules:

| file | module | contents |
|---|---|---|
| php.dfy | `Php` | values, ordered arrays, union, append, `empty`, `??`, `gettype` |
| php_strings.dfy | `PhpStrings` | `strtr` and the example identifier template |
| directory_spec.dfy | `DirectorySpec` | `filterDirectoryParams` and its errors |
| options.dfy | `Options` | default options and `setOptions` |
| trace.dfy | `Trace` | the recorded calls |
| suite_filter.dfy | `SuiteFilter` | the exclude/include computation of `beforeSuite` |
| coverage_listener.dfy | `CoverageListener` | the listener, its handlers, the event table, whole runs |

Two places where the code does something other than its own text suggests;
the model follows the code:

- **Which reports run.** The constructor sets a `format` option
  (`src/Listener/CodeCoverageListener.php:76`), but nothing reads it:
  `afterSuite` iterates `$this->reports`, the renderers passed to the
  constructor (`:105`), so `format` has no effect
  (`AfterSuiteIgnoresFormatOption`).
- **Bare-string blacklist entries.** The comment at
  `src/Listener/CodeCoverageListener.php:150-152` says an exhaustive file
  list is extracted when a blacklist entry has suffixes or prefixes. A bare
  string has neither, yet normalisation gives it suffix `.php` (`:211-212`,
  `:228`), so it too is expanded through the enumerator
  (`BareStringBlacklistEntryExpands`, `SingleEntryConfiguration`). Only an
  array specification whose suffix and prefix are both PHP-empty appends its
  directory to the excludes.

## Model

| member | source | states |
|---|---|---|
| Php.Union | src/Listener/CodeCoverageListener.php:157 | PHP array union keeps every entry of the left operand in place, then adds only those entries of the right operand whose keys are new. So lookup answers from the left operand where it has the key and from the right one otherwise. The key set is the union of the two key sets. |
| Php.ListUnionDropsLeadingEntries | src/Listener/CodeCoverageListener.php:157 | On two lists, `a + b` equals `a` followed by `b` without its first `\|a\|` entries. Those entries are silently lost because their keys are already taken. |
| Php.Append | src/Listener/CodeCoverageListener.php:163 | `$a[] = v` keeps `a` as a prefix and adds exactly one entry, holding `v`, under an integer key that `a` did not have and that exceeds every integer key of `a`. |
| Php.AppendToList | src/Listener/CodeCoverageListener.php:163 | Appending to a list uses the list's length as the new key. |
| Php.UnionWellFormed | src/Listener/CodeCoverageListener.php:201 | The union of two arrays that each have one entry per key again has one entry per key. |
| PhpStrings.LongestMatchIsLongest | src/Listener/CodeCoverageListener.php:134-137 | The pair `strtr` replaces at a position has a non-empty key that starts the remaining text, and no matching key is longer. No pair is chosen exactly when no non-empty key starts the text there. |
| PhpStrings.IdentifierFormat | src/Listener/CodeCoverageListener.php:134-137 | Formatting `'%spec%::%example%'` with the class and example names gives class name, `::`, example name. This holds for any names, even ones containing the placeholders, because replaced text is not rescanned. |
| DirectorySpec.FilterDirectoryParams | src/Listener/CodeCoverageListener.php:209-231 | Throws exactly when the specification is neither a string nor an array, with the `gettype` name in the error, or when its directory is missing or PHP-empty, which throws 'Missing required directory path.'. On success the directory is the given one and is non-empty. A string gets suffix `.php` and prefix `''`. An array keeps a present, non-null suffix or prefix, even an empty one, and defaults only a missing or null one. |
| DirectorySpec.ResourceRejected | src/Listener/CodeCoverageListener.php:215-219 | A resource is rejected with "resource given instead.", or "resource (closed) given instead." when it is closed, as `gettype` names it, and not as an object. |
| DirectorySpec.NormaliseIdempotent | src/Listener/CodeCoverageListener.php:226-230 | Normalising the returned `{directory, suffix, prefix}` array again returns the same settings. |
| DirectorySpec.BareStringDefaults | src/Listener/CodeCoverageListener.php:211-229 | A string that is not PHP-empty normalises to itself with suffix `.php` and prefix `''`. |
| DirectorySpec.ExplicitEmptyFiltersKept | src/Listener/CodeCoverageListener.php:228-229 | An explicit empty suffix and prefix survive normalisation. `??` replaces only missing or null values. |
| Options.SetOptions | src/Listener/CodeCoverageListener.php:199-202 | The merged options have the keys of both arrays. A given key takes the given value. Every other key keeps its current value. |
| Options.SetOptionsIdempotent | src/Listener/CodeCoverageListener.php:199-202 | Setting the same options twice equals setting them once. |
| Options.SetOptionsWellFormed | src/Listener/CodeCoverageListener.php:201 | Merging keeps one entry per option name. |
| Options.SetOptionsKeepsListOptions | src/Listener/CodeCoverageListener.php:199-202 | After setting options that give arrays for any list option they mention, the four list options are still arrays. |
| Options.DefaultsLookup | src/Listener/CodeCoverageListener.php:70-77 | A new listener's six options have the listed default values: whitelist `src`, `lib`; blacklist `test`, `vendor`, `spec`; no extra files; HTML written to `coverage`; format `html`. |
| Options.DefaultsAreWellTyped | src/Listener/CodeCoverageListener.php:70-77 | The default options give arrays for the four list options the suite start iterates. |
| SuiteFilter.ExcludeStep | src/Listener/CodeCoverageListener.php:156-164 | One blacklist entry keeps every exclusion already collected. An entry with a non-empty suffix or prefix adds the enumerated files under the keys not yet used, so every key of its files is then present. Otherwise the entry appends its directory under the next integer key. Every new exclusion is one of the entry's files or its directory. |
| SuiteFilter.ExcludeStepWellFormed | src/Listener/CodeCoverageListener.php:156-164 | A blacklist entry keeps the excludes at one entry per key, given that the enumerated files are: a union adds only new keys and an append uses a fresh one. |
| SuiteFilter.Excludes | src/Listener/CodeCoverageListener.php:153-165 | The blacklist loop succeeds exactly when every entry normalises, and otherwise fails with the error of the first rejected entry. On success the initial `blacklist_files` survive as a prefix; every entry that expands has a key for each of its files, every other entry's directory is among the excluded values; and every exclusion is an initial one, a file of an expanding entry or the directory of another entry. |
| SuiteFilter.ExcludesConcat | src/Listener/CodeCoverageListener.php:153-165 | Running the blacklist loop over two lists one after the other is running it over the first list, then over the second list starting from the excludes the first run built. An error in the first list ends the run with that error. |
| SuiteFilter.ExcludesPrefix | src/Listener/CodeCoverageListener.php:153-165 | When the whole blacklist succeeds, what its first `i` entries exclude is a prefix of the final excludes: nothing is replaced or moved by later entries. When those first entries already fail, the whole loop fails with the same error. |
| SuiteFilter.ExcludesKeepEarlierFile | src/Listener/CodeCoverageListener.php:157-161 | When an expanding entry's file is the first to use a key, that file stays the excluded path at that key, whatever later entries enumerate there. This is the left-wins rule of `+`, applied over the whole loop. |
| SuiteFilter.BareStringBlacklistEntryExpands | src/Listener/CodeCoverageListener.php:155-161 | A bare-string blacklist entry is expanded through the enumerator with suffix `.php` and prefix `''`, and the files are merged by array union. |
| SuiteFilter.EmptyFiltersExcludeDirectory | src/Listener/CodeCoverageListener.php:156-164 | An array entry with empty suffix and prefix appends its directory to the excludes. |
| SuiteFilter.ExpandedListLosesLeadingFiles | src/Listener/CodeCoverageListener.php:157-161 | When the excludes and the enumerated files are lists, the files at positions the excludes already occupy are dropped. |
| SuiteFilter.DefaultBlacklistKeepsLongestExpansion | src/Listener/CodeCoverageListener.php:153-165 | With the default blacklist, no extra blacklisted files and list-shaped enumerations, the excludes form one list as long as the largest of the three expansions. |
| SuiteFilter.DefaultBlacklistExcludes | src/Listener/CodeCoverageListener.php:153-165 | The default blacklist `test`, `vendor`, `spec` unions their three `.php` expansions onto the empty excludes, in that order. |
| SuiteFilter.IncludeRoots | src/Listener/CodeCoverageListener.php:170 | `[$directory] + whitelist_files` has the directory at key 0, and has every other whitelisted file at its own key. |
| SuiteFilter.RootsDropFirstWhitelistFile | src/Listener/CodeCoverageListener.php:170 | For a list of whitelisted files, the first file is replaced by the directory and so never enumerated. |
| SuiteFilter.Includes | src/Listener/CodeCoverageListener.php:167-180 | The whitelist loop only ever includes files. It ends without error exactly when every entry normalises, and otherwise with the first rejected entry's error. |
| SuiteFilter.IncludesFollowEnumeration | src/Listener/CodeCoverageListener.php:167-180 | With every entry accepted, exactly the enumerated files are included, entry by entry and each in the enumerator's order, and nothing else. |
| SuiteFilter.IncludesStopAtFirstRejected | src/Listener/CodeCoverageListener.php:167-180 | A rejected whitelist entry ends the loop with its error, after every earlier entry's files have been included. |
| SuiteFilter.BareStringEntryExcluded | src/Listener/CodeCoverageListener.php:153-165 | With no blacklisted files, a single bare-string blacklist entry makes the excludes exactly that entry's `.php` expansion. |
| SuiteFilter.BareStringEntryIncluded | src/Listener/CodeCoverageListener.php:167-180 | With no whitelisted files, a single bare-string whitelist entry includes exactly the files from enumerating `[directory]` with `.php` and `''` against the excludes, in order, and nothing else. |
| SuiteFilter.SingleEntryConfiguration | src/Listener/CodeCoverageListener.php:148-180 | With blacklist `['spec']`, whitelist `['src']` and no extra files, the suite start obtains the filter, then includes exactly the files from enumerating `src` against the expanded `.php` files of `spec`. The literal directory `spec` is not what gets excluded. |
| SuiteFilter.ConfigureFilter | src/Listener/CodeCoverageListener.php:148-180 | With coverage on, the suite start first obtains the filter and afterwards only includes files. It ends with an error exactly when some blacklist or whitelist entry is rejected. A rejected blacklist entry ends it right after the filter is obtained, with the first such entry's error. A rejected whitelist entry ends it with the first such entry's error, after the files of the entries before it were included. With every entry accepted it includes exactly the enumerated files of each whitelist entry against the computed excludes, in order. |
| CoverageListener.New | src/Listener/CodeCoverageListener.php:65-80 | A new listener keeps the given reports and skip flag and starts from the default options. Its list options are arrays. Its `output` option covers its reports exactly when every non-text report is the `html` one. |
| CoverageListener.DefaultOutputHasHtmlOnly | src/Listener/CodeCoverageListener.php:75 | The default `output` option has a destination for `html` and for no other format. |
| CoverageListener.BeforeSuite | src/Listener/CodeCoverageListener.php:142-181 | With coverage skipped the suite start does nothing. Otherwise it obtains the filter first and then only includes files; a configuration error from a blacklist entry (`:155`) or a whitelist entry (`:168`) ends it, with exactly the calls and error stated for `ConfigureFilter`; without one it includes exactly the enumerated whitelist files. |
| CoverageListener.ExampleIdentifier | src/Listener/CodeCoverageListener.php:128-137 | An example's identifier is its class name, `::` and its method name, with an empty class part when there is no specification. |
| CoverageListener.BeforeExample | src/Listener/CodeCoverageListener.php:120-140 | With coverage skipped no call is made. Otherwise exactly one start is made, under `Class::method`. |
| CoverageListener.AfterExample | src/Listener/CodeCoverageListener.php:82-89 | With coverage skipped no call is made. Otherwise exactly one stop is made. |
| CoverageListener.ReportCalls | src/Listener/CodeCoverageListener.php:105-117 | The report loop makes one `process` call per report, in insertion order: a text report gets a text rendering coloured as the console is decorated, every other report gets its `output[$format]` entry as destination. A text rendering is written to the console right after it is produced, and only then. When verbose, every `process` call is announced by its "Generating … format ..." line right before it; message lines are only such announcements, and without verbosity there are none. |
| CoverageListener.AfterSuite | src/Listener/CodeCoverageListener.php:91-118 | With coverage skipped the suite end writes the skip message when verbose and otherwise does nothing. With coverage on it makes the report loop's `process` calls, one per report in order, with the destinations and colouring above; each text rendering is written right after it is produced. When verbose the first line is a blank one and every `process` call is announced right before it; when quiet there is no message line. |
| CoverageListener.AfterSuiteIgnoresFormatOption | src/Listener/CodeCoverageListener.php:105-117 | Changing the `format` option changes neither the configuration's validity nor anything the suite end does. |
| CoverageListener.AfterSuiteReadsOnlyOutput | src/Listener/CodeCoverageListener.php:105-117 | The suite end depends on the options only through `output`. |
| CoverageListener.DefaultHtmlReport | src/Listener/CodeCoverageListener.php:105-116 | A new listener with one HTML report and a quiet console writes that report to `coverage`, and does nothing else at suite end. |
| CoverageListener.SubscriptionsCoverEveryEvent | src/Listener/CodeCoverageListener.php:186-194 | Each of the four lifecycle events has exactly one subscription, naming the handler of the same name with priority -10. |
| CoverageListener.ExampleCalls | src/Listener/CodeCoverageListener.php:82-140 | Over the examples of a suite, skipped coverage makes no call. Otherwise each example makes one start under its identifier directly followed by one stop, in order. |
| CoverageListener.SkippedRunOnlyReports | src/Listener/CodeCoverageListener.php:82-146 | A whole run with coverage skipped makes no coverage or report call. It writes only the skip message, and only when verbose. |
| CoverageListener.RunAttributesEachExampleOnce | src/Listener/CodeCoverageListener.php:82-181 | In a whole run with coverage on, a configuration error at suite start ends the run with that error, before any example is started. Otherwise the example starts and stops come in start/stop pairs, one per example and in order, between the suite start's filter calls and the report calls. No start or stop happens anywhere else. |

## Left out

- The coverage engine, the report renderers and the console are external. Only the calls made to them are recorded. Neither collected data nor rendered report text is modelled.
- `FileIteratorFacade::getFilesAsArray` belongs to an external library. It is an uninterpreted function of its four arguments. Properties that need a shape, such as a list, require it explicitly.
- Symfony event dispatch and phpspec's reflection are framework plumbing. Class and method names are inputs, and the event table is a constant.
- `isVerbose` and `isDecorated` are console state and are inputs.
- An object is one opaque `Object` value whatever its class, and a resource is a `Resource` that is open or closed. Floats are not modelled. Iterating over an object given where an option array is expected is not modelled.
- Numeric-string array keys are not normalised to integers. Report formats are taken as string keys.
- Php.Append: uses the PHP 8.3 rule: one past the largest integer key, or 0 if there is none. It does not model the earlier rule for negative keys, the per-array counter that remembers deleted keys, or failure at `PHP_INT_MAX`.
- SuiteFilter.ConfigureFilter: the model requires the `whitelist`, `blacklist`, `whitelist_files` and `blacklist_files` options to be arrays, and says nothing about runs where one is not. PHP raises nothing in some of these runs. A non-array `whitelist_files` with an empty whitelist is never read, because `[$directory] + whitelist_files` (`src/Listener/CodeCoverageListener.php:170`) is evaluated only per whitelist entry. A null `blacklist_files` with only entries whose suffix and prefix are PHP-empty becomes an array at the first `$excludes[] = ...` (`:163`). A non-array `blacklist` or `whitelist` only draws a warning from `foreach` (`:154`, `:167`), and the suite start goes on as if that list were empty.
- CoverageListener.BeforeSuite: has the same requirement on the four list options as `ConfigureFilter` when coverage is on.
- CoverageListener.AfterSuite: requires `output[$format]` to exist for every non-text report when coverage is on. When the key is missing, PHP draws a warning and passes null as the target (`src/Listener/CodeCoverageListener.php:115`). A renderer whose target is a non-nullable string then throws a type error. The other renderers render to a string, and `:115` discards it, so no report is written. Which of the two happens depends on the renderer, which is not part of this model.
- CoverageListener.ReportCalls: has the same requirement on `output` as `AfterSuite`.
- PhpStrings.LongestMatchIsLongest: two matching keys of equal length are the same key, which a PHP array cannot hold twice. The model then picks the later pair, and the contract does not say which one is picked. The identifier template's two keys differ in length.
- `WithOptions` only wraps `Options.SetOptions` for a listener and has no row of its own.

=== FILE: coverage_listener.dfy ===
/**
  The code-coverage listener: four lifecycle handlers that drive an external
  coverage engine, each modelled as the list of calls it makes. The skip
  flag, fixed at construction, turns every handler into a no-op except the
  suite end's informational message.
 */
module CoverageListener {
  import opened Php
  import opened PhpStrings
  import opened DirectorySpec
  import opened Options
  import opened Trace
  import opened SuiteFilter

  /** `Report\Text` renders to a string; every other report writes to a target itself. */
  datatype RendererKind = Text | Writing

  /** One entry `$format => $report` of the listener's reports, in insertion order. */
  datatype Report = Report(format: string, kind: RendererKind)

  datatype Listener = Listener(options: PhpArray, reports: seq<Report>, skipCoverage: bool)

  /** What the listener asks of the console. */
  datatype Console = Console(verbose: bool, decorated: bool)

  /** An example: the class name of its specification, if it has one, and its method name. */
  datatype Example = Example(specClass: Option<string>, functionName: string)

  const SkipMessage := "Skipping code coverage generation"

  function GeneratingMessage(format: string): string
  {
    "Generating code coverage report in " + format + " format ..."
  }

  /** `$this->options['output'][$format]` exists. */
  predicate HasOutput(output: Option<Value>, format: string)
  {
    output.Some? && output.value.Arr? && StrKey(format) in Keys(output.value.entries)
  }

  /** The `output` entries the non-text reports need are present. */
  predicate OutputsConfigured(output: Option<Value>, reports: seq<Report>)
  {
    forall i :: 0 <= i < |reports| && reports[i].kind == Writing ==> HasOutput(output, reports[i].format)
  }

  /** What the suite needs from the configuration when coverage is not skipped. */
  predicate Configured(l: Listener)
  {
    FilterConfigured(l) && ReportsConfigured(l)
  }

  /** The suite start reads the four list options as arrays. */
  predicate FilterConfigured(l: Listener)
  {
    l.skipCoverage || ListOptionsAreArrays(l.options)
  }

  /** The suite end reads `output[$format]` for every non-text report. */
  predicate ReportsConfigured(l: Listener)
  {
    l.skipCoverage || OutputsConfigured(Lookup(l.options, OutputKey), l.reports)
  }

  /** The constructor: default options, the given reports and skip flag. */
  function New(reports: seq<Report>, skipCoverage: bool): (l: Listener)
    ensures l.reports == reports && l.skipCoverage == skipCoverage && l.options == Defaults
    ensures ListOptionsAreArrays(l.options)
    ensures OutputsConfigured(Lookup(l.options, OutputKey), reports)
            <==> forall i :: 0 <= i < |reports| && reports[i].kind == Writing ==> reports[i].format == "html"
  {
    DefaultsAreWellTyped();
    DefaultOutputsConfigured(reports);
    Listener(Defaults, reports, skipCoverage)
  }

  lemma DefaultOutputsConfigured(reports: seq<Report>)
    ensures OutputsConfigured(Lookup(Defaults, OutputKey), reports)
            <==> forall i :: 0 <= i < |reports| && reports[i].kind == Writing ==> reports[i].format == "html"
  {
    DefaultOutputHasHtmlOnly();
  }

  lemma DefaultOutputHasHtmlOnly()
    ensures forall format :: HasOutput(Lookup(Defaults, OutputKey), format) <==> format == "html"
  {
    DefaultsLookup();
    KeysSingleton(Entry(StrKey("html"), Str("coverage")));
  }

  /** `setOptions` on a listener. */
  function WithOptions(l: Listener, given: PhpArray): Listener
  {
    l.(options := SetOptions(l.options, given))
  }

  // ---------------------------------------------------------------- suite start

  function BeforeSuite(l: Listener, enumerate: Enumerator): (r: Effects)
    requires FilterConfigured(l)
    ensures l.skipCoverage ==> r == Effects([], None)
    ensures !l.skipCoverage ==> |r.calls| > 0 && r.calls[0] == Filter && forall c :: c in r.calls[1..] ==> c.IncludeFile?
    ensures !l.skipCoverage ==> (r.thrown.None? <==> AllAccepted(Blacklist(l.options)) && AllAccepted(Whitelist(l.options)))
    ensures !l.skipCoverage ==> forall i :: FirstRejected(Blacklist(l.options), i) ==>
              r == Effects([Filter], Some(FilterDirectoryParams(Blacklist(l.options)[i]).error))
    ensures !l.skipCoverage && AllAccepted(Blacklist(l.options)) ==>
              var excludes := Excludes(ArrayOption(l.options, BlacklistFilesKey), Blacklist(l.options), enumerate).value;
              forall i :: FirstRejected(Whitelist(l.options), i) ==>
                var included := PerEntryFiles(Whitelist(l.options)[..i], ArrayOption(l.options, WhitelistFilesKey), excludes, enumerate);
                r == Effects([Filter] + IncludeCalls(Flatten(included)), Some(FilterDirectoryParams(Whitelist(l.options)[i]).error))
    ensures !l.skipCoverage && AllAccepted(Blacklist(l.options)) && AllAccepted(Whitelist(l.options)) ==>
              var excludes := Excludes(ArrayOption(l.options, BlacklistFilesKey), Blacklist(l.options), enumerate).value;
              var included := PerEntryFiles(Whitelist(l.options), ArrayOption(l.options, WhitelistFilesKey), excludes, enumerate);
              r == Effects([Filter] + IncludeCalls(Flatten(included)), None)
  {
    if l.skipCoverage then Effects([], None)
    else ConfigureFilter(l.options, enumerate)
  }

  // ------------------------------------------------------------------- examples

  /** `strtr('%spec%::%example%', ...)`, with an empty class part when there is no specification. */
  function ExampleIdentifier(e: Example): (id: string)
    ensures id == (if e.specClass.Some? then e.specClass.value else "") + "::" + e.functionName
  {
    var specClass := if e.specClass.Some? then e.specClass.value else "";
    IdentifierFormat(specClass, e.functionName);
    Strtr(IdentifierTemplate, [("%spec%", specClass), ("%example%", e.functionName)])
  }

  function BeforeExample(l: Listener, e: Example): (calls: seq<Call>)
    ensures l.skipCoverage ==> calls == []
    ensures !l.skipCoverage ==> calls == [Start((if e.specClass.Some? then e.specClass.value else "") + "::" + e.functionName)]
  {
    if l.skipCoverage then [] else [Start(ExampleIdentifier(e))]
  }

  function AfterExample(l: Listener): (calls: seq<Call>)
    ensures l.skipCoverage ==> calls == []
    ensures !l.skipCoverage ==> calls == [Stop]
  {
    if l.skipCoverage then [] else [Stop]
  }

  // ------------------------------------------------------------------ suite end

  function CountText(reports: seq<Report>): nat
  {
    if |reports| == 0 then 0 else (if reports[0].kind == Text then 1 else 0) + CountText(reports[1..])
  }

  /** A call to a report renderer's `process`, of either kind. */
  predicate IsProcessCall(c: Call)
  {
    c.Process? || c.ProcessText?
  }

  /** The `process` calls of a trace, in order. */
  function ProcessCalls(calls: seq<Call>): seq<Call>
  {
    if |calls| == 0 then []
    else (if IsProcessCall(calls[0]) then [calls[0]] else []) + ProcessCalls(calls[1..])
  }

  lemma {:induction false} ProcessCallsConcat(a: seq<Call>, b: seq<Call>)
    ensures ProcessCalls(a + b) == ProcessCalls(a) + ProcessCalls(b)
  {
    if |a| > 0 {
      assert (a + b)[1..] == a[1..] + b;
      ProcessCallsConcat(a[1..], b);
    } else {
      assert a + b == b;
    }
  }

  /**
    The `process` call a report gets: a text report renders a string,
    coloured as the console is decorated; any other report writes to its
    `output[$format]` entry.
   */
  function ProcessCallFor(r: Report, output: Option<Value>, console: Console): Call
    requires r.kind == Writing ==> HasOutput(output, r.format)
  {
    match r.kind
    case Text => ProcessText(r.format, console.decorated)
    case Writing => Process(r.format, Lookup(output.value.entries, StrKey(r.format)).value)
  }

  /** A message line, as opposed to a rendered report. */
  predicate IsMessage(c: Call)
  {
    c.WriteLn? && c.line.Message?
  }

  /** The text a text report renders is written to the console right after it is produced. */
  predicate TextWrittenNext(calls: seq<Call>)
  {
    forall j :: 0 <= j < |calls| && calls[j].ProcessText? ==>
      j + 1 < |calls| && calls[j + 1] == WriteLn(RenderedReport(calls[j].format))
  }

  /** A rendered report reaches the console only from the text `process` call right before it. */
  predicate RenderedOnlyAfterText(calls: seq<Call>)
  {
    forall j :: 0 <= j < |calls| && calls[j].WriteLn? && calls[j].line.RenderedReport? ==>
      0 < j && calls[j - 1].ProcessText? && calls[j - 1].format == calls[j].line.format
  }

  /** Every `process` call is announced by the "Generating" line right before it. */
  predicate Announced(calls: seq<Call>)
  {
    forall j :: 0 <= j < |calls| && IsProcessCall(calls[j]) ==>
      0 < j && calls[j - 1] == WriteLn(Message(GeneratingMessage(calls[j].format)))
  }

  /** Every message line announces the `process` call right after it. */
  predicate OnlyAnnouncements(calls: seq<Call>)
  {
    forall j :: 0 <= j < |calls| && IsMessage(calls[j]) ==>
      j + 1 < |calls| && IsProcessCall(calls[j + 1]) && calls[j] == WriteLn(Message(GeneratingMessage(calls[j + 1].format)))
  }

  lemma TextWrittenNextConcat(a: seq<Call>, b: seq<Call>)
    requires TextWrittenNext(a) && TextWrittenNext(b)
    ensures TextWrittenNext(a + b)
  {
    var c := a + b;
    forall j | 0 <= j < |c| && c[j].ProcessText?
      ensures j + 1 < |c| && c[j + 1] == WriteLn(RenderedReport(c[j].format))
    {
      if j < |a| {
        assert c[j] == a[j] && c[j + 1] == a[j + 1];
      } else {
        assert c[j] == b[j - |a|] && c[j + 1] == b[j + 1 - |a|];
      }
    }
  }

  lemma RenderedOnlyAfterTextConcat(a: seq<Call>, b: seq<Call>)
    requires RenderedOnlyAfterText(a) && RenderedOnlyAfterText(b)
    ensures RenderedOnlyAfterText(a + b)
  {
    var c := a + b;
    forall j | 0 <= j < |c| && c[j].WriteLn? && c[j].line.RenderedReport?
      ensures 0 < j && c[j - 1].ProcessText? && c[j - 1].format == c[j].line.format
    {
      if j < |a| {
        assert c[j] == a[j] && c[j - 1] == a[j - 1];
      } else {
        assert c[j] == b[j - |a|] && c[j - 1] == b[j - 1 - |a|];
      }
    }
  }

  lemma AnnouncedConcat(a: seq<Call>, b: seq<Call>)
    requires Announced(a) && Announced(b)
    ensures Announced(a + b)
  {
    var c := a + b;
    forall j | 0 <= j < |c| && IsProcessCall(c[j])
      ensures 0 < j && c[j - 1] == WriteLn(Message(GeneratingMessage(c[j].format)))
    {
      if j < |a| {
        assert c[j] == a[j] && c[j - 1] == a[j - 1];
      } else {
        assert c[j] == b[j - |a|] && c[j - 1] == b[j - 1 - |a|];
      }
    }
  }

  lemma OnlyAnnouncementsConcat(a: seq<Call>, b: seq<Call>)
    requires OnlyAnnouncements(a) && OnlyAnnouncements(b)
    ensures OnlyAnnouncements(a + b)
  {
    var c := a + b;
    forall j | 0 <= j < |c| && IsMessage(c[j])
      ensures j + 1 < |c| && IsProcessCall(c[j + 1]) && c[j] == WriteLn(Message(GeneratingMessage(c[j + 1].format)))
    {
      if j < |a| {
        assert c[j] == a[j] && c[j + 1] == a[j + 1];
      } else {
        assert c[j] == b[j - |a|] && c[j + 1] == b[j + 1 - |a|];
      }
    }
  }

  /** The calls for one report. */
  function ReportCall(r: Report, output: Option<Value>, console: Console): (calls: seq<Call>)
    requires r.kind == Writing ==> HasOutput(output, r.format)
  {
    (if console.verbose then [WriteLn(Message(GeneratingMessage(r.format)))] else [])
    + (if r.kind == Text then [ProcessText(r.format, console.decorated), WriteLn(RenderedReport(r.format))]
       else [Process(r.format, Lookup(output.value.entries, StrKey(r.format)).value)])
  }

  lemma ReportCallShape(r: Report, output: Option<Value>, console: Console)
    requires r.kind == Writing ==> HasOutput(output, r.format)
    ensures var calls := ReportCall(r, output, console);
            && (forall c :: c in calls && c.Process? ==> output.Some? && output.value.Arr? && Lookup(output.value.entries, StrKey(c.format)) == Some(c.target))
            && (forall c :: c in calls && c.ProcessText? ==> c.showColors == console.decorated)
            && (forall c :: c in calls ==> c.Process? || c.ProcessText? || c.WriteLn?)
            && (!console.verbose ==> |calls| == if r.kind == Text then 2 else 1)
  {
  }

  /** One report makes exactly one `process` call, of the kind the report asks for. */
  lemma ReportCallProcess(r: Report, output: Option<Value>, console: Console)
    requires r.kind == Writing ==> HasOutput(output, r.format)
    ensures ProcessCalls(ReportCall(r, output, console)) == [ProcessCallFor(r, output, console)]
  {
    var message := if console.verbose then [WriteLn(Message(GeneratingMessage(r.format)))] else [];
    var process := if r.kind == Text then [ProcessText(r.format, console.decorated), WriteLn(RenderedReport(r.format))]
                   else [Process(r.format, Lookup(output.value.entries, StrKey(r.format)).value)];
    assert ProcessCalls(message) == [] by {
      if console.verbose {
        assert message[1..] == [];
      }
    }
    assert ProcessCalls(process) == [ProcessCallFor(r, output, console)] by {
      if r.kind == Text {
        assert process[1..][1..] == [];
      } else {
        assert process[1..] == [];
      }
    }
    ProcessCallsConcat(message, process);
  }

  /** The console lines of one report: its announcement when verbose, and its rendering when it is a text report. */
  lemma ReportCallLines(r: Report, output: Option<Value>, console: Console)
    requires r.kind == Writing ==> HasOutput(output, r.format)
    ensures var calls := ReportCall(r, output, console);
            && TextWrittenNext(calls) && RenderedOnlyAfterText(calls) && OnlyAnnouncements(calls)
            && (console.verbose ==> Announced(calls))
            && (!console.verbose ==> forall c :: c in calls ==> !IsMessage(c))
  {
    var announce := if console.verbose then [WriteLn(Message(GeneratingMessage(r.format)))] else [];
    if r.kind == Text {
      TextReportLines(announce, r.format, console.decorated, console.verbose);
    } else {
      WritingReportLines(announce, r.format, Lookup(output.value.entries, StrKey(r.format)).value, console.verbose);
    }
  }

  lemma TextReportLines(announce: seq<Call>, format: string, showColors: bool, verbose: bool)
    requires announce == if verbose then [WriteLn(Message(GeneratingMessage(format)))] else []
    ensures var calls := announce + [ProcessText(format, showColors), WriteLn(RenderedReport(format))];
            && TextWrittenNext(calls) && RenderedOnlyAfterText(calls) && OnlyAnnouncements(calls)
            && (verbose ==> Announced(calls))
            && (!verbose ==> forall c :: c in calls ==> !IsMessage(c))
  {
  }

  lemma WritingReportLines(announce: seq<Call>, format: string, target: Value, verbose: bool)
    requires announce == if verbose then [WriteLn(Message(GeneratingMessage(format)))] else []
    ensures var calls := announce + [Process(format, target)];
            && TextWrittenNext(calls) && RenderedOnlyAfterText(calls) && OnlyAnnouncements(calls)
            && (verbose ==> Announced(calls))
            && (!verbose ==> forall c :: c in calls ==> !IsMessage(c))
  {
  }

  /**
    The report loop: one `process` call per report, in the reports' order;
    a text report's result goes to the console, any other report gets its
    `output` entry as target. When verbose, each report is announced first.
   */
  function ReportCalls(reports: seq<Report>, output: Option<Value>, console: Console): (calls: seq<Call>)
    requires OutputsConfigured(output, reports)
    ensures |ProcessCalls(calls)| == |reports|
    ensures forall i :: 0 <= i < |reports| ==> ProcessCalls(calls)[i] == ProcessCallFor(reports[i], output, console)
    ensures forall c :: c in calls && c.Process? ==> output.Some? && output.value.Arr? && Lookup(output.value.entries, StrKey(c.format)) == Some(c.target)
    ensures forall c :: c in calls && c.ProcessText? ==> c.showColors == console.decorated
    ensures forall c :: c in calls ==> c.Process? || c.ProcessText? || c.WriteLn?
    ensures TextWrittenNext(calls) && RenderedOnlyAfterText(calls) && OnlyAnnouncements(calls)
    ensures console.verbose ==> Announced(calls)
    ensures !console.verbose ==> forall c :: c in calls ==> !IsMessage(c)
    ensures !console.verbose ==> |calls| == |reports| + CountText(reports)
    decreases |reports|
  {
    if |reports| == 0 then []
    else
      var first := ReportCall(reports[0], output, console);
      var rest := ReportCalls(reports[1..], output, console);
      ReportCallShape(reports[0], output, console);
      ReportCallLines(reports[0], output, console);
      ReportCallProcess(reports[0], output, console);
      ProcessCallsFollowReports(reports, output, console, first, rest);
      BlockThenRest(first, rest, console.verbose);
      first + rest
  }

  lemma ProcessCallsFollowReports(reports: seq<Report>, output: Option<Value>, console: Console, first: seq<Call>, rest: seq<Call>)
    requires |reports| > 0 && OutputsConfigured(output, reports)
    requires ProcessCalls(first) == [ProcessCallFor(reports[0], output, console)]
    requires |ProcessCalls(rest)| == |reports| - 1
    requires forall i :: 0 <= i < |reports| - 1 ==> ProcessCalls(rest)[i] == ProcessCallFor(reports[1..][i], output, console)
    ensures |ProcessCalls(first + rest)| == |reports|
    ensures forall i :: 0 <= i < |reports| ==> ProcessCalls(first + rest)[i] == ProcessCallFor(reports[i], output, console)
  {
    ProcessCallsConcat(first, rest);
    forall i | 1 <= i < |reports|
      ensures ProcessCalls(first + rest)[i] == ProcessCallFor(reports[i], output, console)
    {
      assert reports[i] == reports[1..][i - 1];
    }
  }

  /** One report's calls followed by the rest keep every per-call property of the two parts. */
  lemma BlockThenRest(first: seq<Call>, rest: seq<Call>, verbose: bool)
    requires TextWrittenNext(first) && RenderedOnlyAfterText(first) && OnlyAnnouncements(first)
    requires TextWrittenNext(rest) && RenderedOnlyAfterText(rest) && OnlyAnnouncements(rest)
    requires verbose ==> Announced(first) && Announced(rest)
    requires !verbose ==> (forall c :: c in first ==> !IsMessage(c)) && (forall c :: c in rest ==> !IsMessage(c))
    ensures TextWrittenNext(first + rest) && RenderedOnlyAfterText(first + rest) && OnlyAnnouncements(first + rest)
    ensures verbose ==> Announced(first + rest)
    ensures !verbose ==> forall c :: c in first + rest ==> !IsMessage(c)
    ensures forall c :: c in first + rest ==> c in first || c in rest
  {
    TextWrittenNextConcat(first, rest);
    RenderedOnlyAfterTextConcat(first, rest);
    OnlyAnnouncementsConcat(first, rest);
    if verbose {
      AnnouncedConcat(first, rest);
    }
  }

  function AfterSuite(l: Listener, console: Console): (calls: seq<Call>)
    requires ReportsConfigured(l)
    ensures l.skipCoverage ==> calls == (if console.verbose then [WriteLn(Message(SkipMessage))] else [])
    ensures !l.skipCoverage ==> |ProcessCalls(calls)| == |l.reports|
    ensures !l.skipCoverage ==> forall i :: 0 <= i < |l.reports| ==>
              ProcessCalls(calls)[i] == ProcessCallFor(l.reports[i], Lookup(l.options, OutputKey), console)
    ensures forall c :: c in calls ==> c.Process? || c.ProcessText? || c.WriteLn?
    ensures forall c :: c in calls && c.Process? ==>
              && HasOutput(Lookup(l.options, OutputKey), c.format)
              && Lookup(Lookup(l.options, OutputKey).value.entries, StrKey(c.format)) == Some(c.target)
    ensures forall c :: c in calls && c.ProcessText? ==> c.showColors == console.decorated
    ensures TextWrittenNext(calls) && RenderedOnlyAfterText(calls)
    ensures !l.skipCoverage && console.verbose ==>
              |calls| > 0 && calls[0] == WriteLn(Message("")) && Announced(calls) && OnlyAnnouncements(calls[1..])
    ensures !l.skipCoverage && !console.verbose ==> forall c :: c in calls ==> !IsMessage(c)
    ensures !l.skipCoverage && !console.verbose ==> |calls| == |l.reports| + CountText(l.reports)
  {
    if l.skipCoverage then
      if console.verbose then [WriteLn(Message(SkipMessage))] else []
    else
      var blank := if console.verbose then [WriteLn(Message(""))] else [];
      var reports := ReportCalls(l.reports, Lookup(l.options, OutputKey), console);
      BlankThenReports(blank, reports, console.verbose);
      blank + reports
  }

  /** The suite end's optional blank line changes nothing about the report calls after it. */
  lemma BlankThenReports(blank: seq<Call>, reports: seq<Call>, verbose: bool)
    requires blank == if verbose then [WriteLn(Message(""))] else []
    requires TextWrittenNext(reports) && RenderedOnlyAfterText(reports) && (verbose ==> Announced(reports))
    ensures ProcessCalls(blank + reports) == ProcessCalls(reports)
    ensures TextWrittenNext(blank + reports) && RenderedOnlyAfterText(blank + reports)
    ensures verbose ==> Announced(blank + reports) && (blank + reports)[1..] == reports
    ensures !verbose ==> blank + reports == reports
    ensures forall c :: c in blank + reports ==> c in blank || c in reports
  {
    ProcessCallsConcat(blank, reports);
    if verbose {
      assert blank[1..] == [];
      AnnouncedConcat(blank, reports);
    }
    TextWrittenNextConcat(blank, reports);
    RenderedOnlyAfterTextConcat(blank, reports);
  }

  // --------------------------------------------------------------------- events

  datatype Subscription = Subscription(event: string, handler: string, priority: int)

  /** The lifecycle events a test run delivers, in the host's naming. */
  datatype LifecycleEvent = BeforeSuiteEvent | BeforeExampleEvent | AfterExampleEvent | AfterSuiteEvent
  {
    function Name(): string
    {
      match this
      case BeforeSuiteEvent => "beforeSuite"
      case BeforeExampleEvent => "beforeExample"
      case AfterExampleEvent => "afterExample"
      case AfterSuiteEvent => "afterSuite"
    }
  }

  /** `getSubscribedEvents`. */
  function SubscribedEvents(): seq<Subscription>
  {
    [ Subscription("beforeExample", "beforeExample", -10),
      Subscription("afterExample", "afterExample", -10),
      Subscription("beforeSuite", "beforeSuite", -10),
      Subscription("afterSuite", "afterSuite", -10) ]
  }

  /**
    Every lifecycle event has exactly one subscription, which names the
    handler of the same name with priority -10, below the default 0, so the
    listener runs after listeners registered at default priority.
   */
  lemma SubscriptionsCoverEveryEvent(e: LifecycleEvent)
    ensures var table := SubscribedEvents();
            exists i :: 0 <= i < |table| && table[i] == Subscription(e.Name(), e.Name(), -10)
              && forall j :: 0 <= j < |table| && j != i ==> table[j].event != e.Name()
  {
    var table := SubscribedEvents();
    assert "beforeExample"[0] != "afterExample"[0] && "beforeSuite"[0] != "afterSuite"[0];
    assert "beforeExample" != "beforeSuite" by { assert "beforeExample"[6] != "beforeSuite"[6]; }
    assert "afterExample" != "afterSuite" by { assert "afterExample"[5] != "afterSuite"[5]; }
    match e
    case BeforeExampleEvent => assert table[0] == Subscription(e.Name(), e.Name(), -10);
    case AfterExampleEvent => assert table[1] == Subscription(e.Name(), e.Name(), -10);
    case BeforeSuiteEvent => assert table[2] == Subscription(e.Name(), e.Name(), -10);
    case AfterSuiteEvent => assert table[3] == Subscription(e.Name(), e.Name(), -10);
  }

  // ------------------------------------------------------------------ whole run

  /** One start with the given identifier, directly followed by one stop, per identifier, in order. */
  ghost predicate StartStopPairs(calls: seq<Call>, ids: seq<string>)
  {
    |calls| == 2 * |ids| && forall i :: 0 <= i < |ids| ==> calls[2 * i] == Start(ids[i]) && calls[2 * i + 1] == Stop
  }

  lemma StartStopPairsCons(id: string, ids: seq<string>, rest: seq<Call>)
    requires StartStopPairs(rest, ids)
    ensures StartStopPairs([Start(id), Stop] + rest, [id] + ids)
  {
    var calls := [Start(id), Stop] + rest;
    forall i | 1 <= i < |ids| + 1
      ensures calls[2 * i] == Start(([id] + ids)[i]) && calls[2 * i + 1] == Stop
    {
      var k := i - 1;
      assert calls[2 * k + 2] == rest[2 * k] && calls[2 * k + 3] == rest[2 * k + 1];
    }
  }

  function Identifiers(examples: seq<Example>): (ids: seq<string>)
    ensures |ids| == |examples|
    ensures forall i :: 0 <= i < |examples| ==> ids[i] == ExampleIdentifier(examples[i])
  {
    seq(|examples|, i requires 0 <= i < |examples| => ExampleIdentifier(examples[i]))
  }

  lemma ExampleCallsStep(l: Listener, e: Example, examples: seq<Example>, rest: seq<Call>)
    requires !l.skipCoverage && StartStopPairs(rest, Identifiers(examples))
    ensures StartStopPairs(BeforeExample(l, e) + AfterExample(l) + rest, Identifiers([e] + examples))
  {
    var id := ExampleIdentifier(e);
    var ids := Identifiers(examples);
    assert Identifiers([e] + examples) == [id] + ids;
    assert BeforeExample(l, e) + AfterExample(l) + rest == [Start(id), Stop] + rest;
    StartStopPairsCons(id, ids, rest);
  }

  /** The calls of the examples of one suite: a start and a stop per example. */
  function ExampleCalls(l: Listener, examples: seq<Example>): (calls: seq<Call>)
    ensures l.skipCoverage ==> calls == []
    ensures !l.skipCoverage ==> StartStopPairs(calls, Identifiers(examples))
    decreases |examples|
  {
    if |examples| == 0 then []
    else
      var rest := ExampleCalls(l, examples[1..]);
      assert [examples[0]] + examples[1..] == examples;
      if l.skipCoverage then
        assert BeforeExample(l, examples[0]) + AfterExample(l) == [];
        BeforeExample(l, examples[0]) + AfterExample(l) + rest
      else
        ExampleCallsStep(l, examples[0], examples[1..], rest);
        BeforeExample(l, examples[0]) + AfterExample(l) + rest
  }

  /**
    One suite run as the host delivers it: suite start, start and end of
    every example, suite end. A configuration error at suite start aborts
    the run.
   */
  function RunSuite(l: Listener, console: Console, enumerate: Enumerator, examples: seq<Example>): Effects
    requires Configured(l)
  {
    var start := BeforeSuite(l, enumerate);
    if start.thrown.Some? then start
    else Effects(start.calls + ExampleCalls(l, examples) + AfterSuite(l, console), None)
  }

  /** With coverage skipped a whole run makes no coverage or report call: at most the one message. */
  lemma SkippedRunOnlyReports(l: Listener, console: Console, enumerate: Enumerator, examples: seq<Example>)
    requires l.skipCoverage
    ensures RunSuite(l, console, enumerate, examples)
            == Effects(if console.verbose then [WriteLn(Message(SkipMessage))] else [], None)
  {
  }

  /**
    With coverage on and an accepted configuration, every example gets one
    start with its identifier followed directly by one stop, between the
    filter calls of the suite start and the report calls of the suite end;
    no start or stop happens anywhere else.
   */
  lemma {:induction false} RunAttributesEachExampleOnce(l: Listener, console: Console, enumerate: Enumerator, examples: seq<Example>)
    requires Configured(l) && !l.skipCoverage
    ensures var r := RunSuite(l, console, enumerate, examples);
            var start := BeforeSuite(l, enumerate);
            start.thrown.Some? ==> r.thrown == start.thrown && forall c :: c in r.calls ==> !c.Start? && !c.Stop?
    ensures var r := RunSuite(l, console, enumerate, examples);
            var start := BeforeSuite(l, enumerate);
            var n := |start.calls|;
            start.thrown.None? ==>
              && r.thrown.None?
              && n + 2 * |examples| <= |r.calls|
              && StartStopPairs(r.calls[n..n + 2 * |examples|], Identifiers(examples))
              && forall c :: c in r.calls[..n] + r.calls[n + 2 * |examples|..] ==> !c.Start? && !c.Stop?
  {
    var start := BeforeSuite(l, enumerate).calls;
    var middle := ExampleCalls(l, examples);
    var end := AfterSuite(l, console);
    NoStartOrStopAroundExamples(l, console, enumerate);
    if BeforeSuite(l, enumerate).thrown.None? {
      assert RunSuite(l, console, enumerate, examples).calls == start + middle + end;
      ThreePartSlices(start, middle, end);
    } else {
      assert forall c :: c in start ==> c in start + end;
    }
  }

  lemma ThreePartSlices(a: seq<Call>, b: seq<Call>, c: seq<Call>)
    ensures (a + b + c)[|a|..|a| + |b|] == b
    ensures (a + b + c)[..|a|] + (a + b + c)[|a| + |b|..] == a + c
  {
    assert (a + b + c)[..|a|] == a;
    assert (a + b + c)[|a| + |b|..] == c;
  }

  /** The suite start and end never start or stop coverage collection. */
  lemma NoStartOrStopAroundExamples(l: Listener, console: Console, enumerate: Enumerator)
    requires Configured(l)
    ensures forall c :: c in BeforeSuite(l, enumerate).calls + AfterSuite(l, console) ==> !c.Start? && !c.Stop?
  {
    var start := BeforeSuite(l, enumerate).calls;
    var end := AfterSuite(l, console);
    forall c: Call | c in start + end
      ensures !c.Start? && !c.Stop?
    {
      if c in start {
        assert c == start[0] || c in start[1..];
      }
    }
  }

  /** The suite end depends on the options only through `output`. */
  lemma AfterSuiteReadsOnlyOutput(l: Listener, m: Listener, console: Console)
    requires ReportsConfigured(l) && ReportsConfigured(m)
    requires l.reports == m.reports && l.skipCoverage == m.skipCoverage
    requires Lookup(l.options, OutputKey) == Lookup(m.options, OutputKey)
    ensures AfterSuite(l, console) == AfterSuite(m, console)
  {
  }

  /** Setting only `format` leaves every other option as it was. */
  lemma SetFormatKeepsOtherOptions(options: PhpArray, formats: Value)
    ensures forall k :: k != FormatKey ==> Lookup(SetOptions(options, [Entry(FormatKey, formats)]), k) == Lookup(options, k)
  {
    KeysSingleton(Entry(FormatKey, formats));
  }

  /** The reports are iterated, not the `format` option: changing `format` changes nothing. */
  lemma AfterSuiteIgnoresFormatOption(l: Listener, console: Console, formats: Value)
    requires Configured(l)
    ensures Configured(WithOptions(l, [Entry(FormatKey, formats)]))
    ensures AfterSuite(WithOptions(l, [Entry(FormatKey, formats)]), console) == AfterSuite(l, console)
  {
    var m := WithOptions(l, [Entry(FormatKey, formats)]);
    SetFormatKeepsOtherOptions(l.options, formats);
    assert "output"[0] != "format"[0];
    assert "whitelist"[0] != "format"[0] && "blacklist"[0] != "format"[0];
    assert "whitelist_files"[0] != "format"[0] && "blacklist_files"[0] != "format"[0];
    assert Lookup(m.options, OutputKey) == Lookup(l.options, OutputKey);
    assert ListOptionsAreArrays(l.options) ==> ListOptionsAreArrays(m.options);
    AfterSuiteReadsOnlyOutput(m, l, console);
  }

  /** A new listener with one HTML report writes it to "coverage", and does nothing else when quiet. */
  lemma DefaultHtmlReport()
    ensures AfterSuite(New([Report("html", Writing)], false), Console(false, false)) == [Process("html", Str("coverage"))]
  {
    NewHtmlListenerQuiet();
    HtmlReportCalls();
  }

  lemma NewHtmlListenerQuiet()
    ensures ReportsConfigured(New([Report("html", Writing)], false))
    ensures AfterSuite(New([Report("html", Writing)], false), Console(false, false))
            == ReportCalls([Report("html", Writing)], Lookup(Defaults, OutputKey), Console(false, false))
  {
    DefaultHtmlCall();
    QuietAfterSuite(New([Report("html", Writing)], false), Console(false, false));
  }

  lemma HtmlReportCalls()
    ensures OutputsConfigured(Lookup(Defaults, OutputKey), [Report("html", Writing)])
    ensures ReportCalls([Report("html", Writing)], Lookup(Defaults, OutputKey), Console(false, false)) == [Process("html", Str("coverage"))]
  {
    DefaultHtmlCall();
    SingleReportCalls(Report("html", Writing), Lookup(Defaults, OutputKey), Console(false, false));
  }

  lemma DefaultHtmlCall()
    ensures HasOutput(Lookup(Defaults, OutputKey), "html")
    ensures ReportCall(Report("html", Writing), Lookup(Defaults, OutputKey), Console(false, false)) == [Process("html", Str("coverage"))]
  {
    var html := [Entry(StrKey("html"), Str("coverage"))];
    DefaultsLookup();
    KeysSingleton(html[0]);
    assert Lookup(html, StrKey("html")) == Some(Str("coverage"));
  }

  lemma QuietAfterSuite(l: Listener, console: Console)
    requires ReportsConfigured(l) && !l.skipCoverage && !console.verbose
    ensures AfterSuite(l, console) == ReportCalls(l.reports, Lookup(l.options, OutputKey), console)
  {
  }

  lemma SingleReportCalls(r: Report, output: Option<Value>, console: Console)
    requires r.kind == Writing ==> HasOutput(output, r.format)
    ensures ReportCalls([r], output, console) == ReportCall(r, output, console)
  {
    assert [r][1..] == [];
  }
}

=== FILE: directory_spec.dfy ===
/**
  Directory specifications of the white- and blacklist: either a bare path
  string or an associative array `['directory' => ..., 'suffix' => ...,
  'prefix' => ...]`, normalised to all three settings or rejected with a
  configuration error.
 */
module DirectorySpec {
  import opened Php

  /** The two ways a directory specification is rejected. */
  datatype ConfigurationException =
    | NotStringOrArray(givenType: string)
    | MissingDirectory
  {
    function Message(): string
    {
      match this
      case NotStringOrArray(t) =>
        "Directory filtering options must be a string or an associated array, " + t + " given instead."
      case MissingDirectory => "Missing required directory path."
    }
  }

  /** Either a value or the configuration error that was thrown instead. */
  datatype Outcome<+T> = Ok(value: T) | Thrown(error: ConfigurationException)

  /** The normalised specification `{directory, suffix, prefix}`. */
  datatype Settings = Settings(directory: Value, suffix: Value, prefix: Value)

  const DirectoryKey := StrKey("directory")
  const SuffixKey := StrKey("suffix")
  const PrefixKey := StrKey("prefix")
  const DefaultSuffix := Str(".php")
  const DefaultPrefix := Str("")

  /** The `directory` field a specification supplies, if any. */
  function DirectoryOf(option: Value): Option<Value>
  {
    match option
    case Str(_) => Some(option)
    case Arr(entries) => Lookup(entries, DirectoryKey)
    case _ => None
  }

  /**
    `filterDirectoryParams`: a string becomes `['directory' => $s]`; anything
    that is then not an array is rejected; an empty or missing directory is
    rejected; suffix and prefix default to ".php" and "" when missing or null.
   */
  function FilterDirectoryParams(option: Value): (r: Outcome<Settings>)
    ensures r.Thrown? <==> !(option.Str? || option.Arr?) || IsEmpty(DirectoryOf(option))
    ensures !(option.Str? || option.Arr?) ==> r == Thrown(NotStringOrArray(TypeName(option)))
    ensures (option.Str? || option.Arr?) && IsEmpty(DirectoryOf(option)) ==> r == Thrown(MissingDirectory)
    ensures r.Ok? ==> !IsEmpty(Some(r.value.directory)) && Some(r.value.directory) == DirectoryOf(option)
    ensures r.Ok? ==> r.value.suffix != Null && r.value.prefix != Null
    ensures option.Str? && r.Ok? ==> r.value == Settings(option, DefaultSuffix, DefaultPrefix)
    ensures option.Arr? && r.Ok? ==>
              var suffix := Lookup(option.entries, SuffixKey);
              r.value.suffix == (if suffix.Some? && suffix.value != Null then suffix.value else DefaultSuffix)
    ensures option.Arr? && r.Ok? ==>
              var prefix := Lookup(option.entries, PrefixKey);
              r.value.prefix == (if prefix.Some? && prefix.value != Null then prefix.value else DefaultPrefix)
  {
    var option := if option.Str? then Arr([Entry(DirectoryKey, option)]) else option;
    if !option.Arr? then
      Thrown(NotStringOrArray(TypeName(option)))
    else
      var directory := Lookup(option.entries, DirectoryKey);
      if IsEmpty(directory) then
        Thrown(MissingDirectory)
      else
        Ok(Settings(
             directory.value,
             Coalesce(Lookup(option.entries, SuffixKey), DefaultSuffix),
             Coalesce(Lookup(option.entries, PrefixKey), DefaultPrefix)))
  }

  /** A resource is rejected under its own `gettype` name, not as an object. */
  lemma ResourceRejected(closed: bool)
    ensures FilterDirectoryParams(Resource(closed))
            == Thrown(NotStringOrArray(if closed then "resource (closed)" else "resource"))
    ensures FilterDirectoryParams(Resource(closed)).error.Message()
            == "Directory filtering options must be a string or an associated array, "
               + (if closed then "resource (closed)" else "resource") + " given instead."
  {
  }

  /** The array `filterDirectoryParams` returns. */
  function AsArray(s: Settings): PhpArray
  {
    [Entry(DirectoryKey, s.directory), Entry(SuffixKey, s.suffix), Entry(PrefixKey, s.prefix)]
  }

  /**
    Normalisation is idempotent: feeding its own result back in as an array
    specification returns the same settings.
   */
  lemma NormaliseIdempotent(option: Value)
    requires FilterDirectoryParams(option).Ok?
    ensures FilterDirectoryParams(Arr(AsArray(FilterDirectoryParams(option).value))) == FilterDirectoryParams(option)
  {
    var s := FilterDirectoryParams(option).value;
    LookupSettings(s.directory, s.suffix, s.prefix);
  }

  lemma LookupSettings(directory: Value, suffix: Value, prefix: Value)
    ensures var a := [Entry(DirectoryKey, directory), Entry(SuffixKey, suffix), Entry(PrefixKey, prefix)];
            && Lookup(a, DirectoryKey) == Some(directory)
            && Lookup(a, SuffixKey) == Some(suffix)
            && Lookup(a, PrefixKey) == Some(prefix)
  {
    var a := [Entry(DirectoryKey, directory), Entry(SuffixKey, suffix), Entry(PrefixKey, prefix)];
    assert "prefix"[0] != "directory"[0] && "prefix"[0] != "suffix"[0] && "suffix"[0] != "directory"[0];
    assert a[1..] == [Entry(SuffixKey, suffix), Entry(PrefixKey, prefix)];
    assert a[1..][1..] == [Entry(PrefixKey, prefix)];
    assert Lookup(a, PrefixKey) == Lookup(a[1..], PrefixKey) == Lookup(a[1..][1..], PrefixKey);
  }

  /** A bare string that is not PHP-empty always gets the defaults ".php" and "". */
  lemma BareStringDefaults(path: string)
    requires path != "" && path != "0"
    ensures FilterDirectoryParams(Str(path)) == Ok(Settings(Str(path), Str(".php"), Str("")))
  {
  }

  /** An explicit empty suffix or prefix is kept, not replaced by a default. */
  lemma ExplicitEmptyFiltersKept(directory: string)
    requires directory != "" && directory != "0"
    ensures var spec := [Entry(DirectoryKey, Str(directory)), Entry(SuffixKey, Str("")), Entry(PrefixKey, Str(""))];
            FilterDirectoryParams(Arr(spec)) == Ok(Settings(Str(directory), Str(""), Str("")))
  {
    LookupSettings(Str(directory), Str(""), Str(""));
  }
}

=== FILE: options.dfy ===
/**
  The listener's configuration: a string-keyed PHP array with six defaults,
  which user options override key by key.
 */
module Options {
  import opened Php

  const WhitelistKey := StrKey("whitelist")
  const BlacklistKey := StrKey("blacklist")
  const WhitelistFilesKey := StrKey("whitelist_files")
  const BlacklistFilesKey := StrKey("blacklist_files")
  const OutputKey := StrKey("output")
  const FormatKey := StrKey("format")

  /** The options a new listener starts with. */
  const Defaults: PhpArray := [
    Entry(WhitelistKey, Arr(List([Str("src"), Str("lib")]))),
    Entry(BlacklistKey, Arr(List([Str("test"), Str("vendor"), Str("spec")]))),
    Entry(WhitelistFilesKey, Arr([])),
    Entry(BlacklistFilesKey, Arr([])),
    Entry(OutputKey, Arr([Entry(StrKey("html"), Str("coverage"))])),
    Entry(FormatKey, Arr(List([Str("html")])))
  ]

  /**
    `setOptions`: `$options + $this->options`. A supplied key replaces the
    whole current value (no deep merge); every other key keeps its value.
   */
  function SetOptions(current: PhpArray, given: PhpArray): (r: PhpArray)
    ensures Keys(r) == Keys(given) + Keys(current)
    ensures forall k :: k in Keys(given) ==> Lookup(r, k) == Lookup(given, k)
    ensures forall k :: k !in Keys(given) ==> Lookup(r, k) == Lookup(current, k)
  {
    Union(given, current)
  }

  /** Merging two PHP arrays gives one entry per option name. */
  lemma SetOptionsWellFormed(current: PhpArray, given: PhpArray)
    requires WellFormed(given) && WellFormed(current)
    ensures WellFormed(SetOptions(current, given))
  {
    UnionWellFormed(given, current);
  }

  /** Setting the same options twice is the same as setting them once. */
  lemma SetOptionsIdempotent(current: PhpArray, given: PhpArray)
    ensures SetOptions(SetOptions(current, given), given) == SetOptions(current, given)
  {
    UnionIdempotent(given, current);
  }

  predicate IsArrayOption(options: PhpArray, k: Key)
  {
    var v := Lookup(options, k);
    v.Some? && v.value.Arr?
  }

  /** The four list-valued options hold arrays, as the suite start needs. */
  predicate ListOptionsAreArrays(options: PhpArray)
  {
    && IsArrayOption(options, WhitelistKey)
    && IsArrayOption(options, BlacklistKey)
    && IsArrayOption(options, WhitelistFilesKey)
    && IsArrayOption(options, BlacklistFilesKey)
  }

  function ArrayOption(options: PhpArray, k: Key): PhpArray
    requires IsArrayOption(options, k)
  {
    Lookup(options, k).value.entries
  }

  lemma DefaultsLookup()
    ensures Lookup(Defaults, WhitelistKey) == Some(Arr(List([Str("src"), Str("lib")])))
    ensures Lookup(Defaults, BlacklistKey) == Some(Arr(List([Str("test"), Str("vendor"), Str("spec")])))
    ensures Lookup(Defaults, WhitelistFilesKey) == Some(Arr([]))
    ensures Lookup(Defaults, BlacklistFilesKey) == Some(Arr([]))
    ensures Lookup(Defaults, OutputKey) == Some(Arr([Entry(StrKey("html"), Str("coverage"))]))
    ensures Lookup(Defaults, FormatKey) == Some(Arr(List([Str("html")])))
  {
    var d := Defaults;
    var d1, d2, d3, d4, d5 := d[1..], d[2..], d[3..], d[4..], d[5..];
    assert d1 == d[1..] && d2 == d1[1..] && d3 == d2[1..] && d4 == d3[1..] && d5 == d4[1..];
    assert "whitelist"[0] != "blacklist"[0] && "whitelist"[0] != "output"[0] && "whitelist"[0] != "format"[0];
    assert "blacklist"[0] != "output"[0] && "blacklist"[0] != "format"[0] && "output"[0] != "format"[0];
    assert "whitelist" != "whitelist_files" && "blacklist" != "blacklist_files";
    assert "whitelist_files"[0] != "blacklist_files"[0];
    assert "whitelist_files"[0] != "output"[0] && "whitelist_files"[0] != "format"[0];
    assert "blacklist_files"[0] != "output"[0] && "blacklist_files"[0] != "format"[0];
    assert Lookup(d, BlacklistKey) == Lookup(d1, BlacklistKey);
    assert Lookup(d, WhitelistFilesKey) == Lookup(d1, WhitelistFilesKey) == Lookup(d2, WhitelistFilesKey);
    assert Lookup(d, BlacklistFilesKey) == Lookup(d1, BlacklistFilesKey) == Lookup(d2, BlacklistFilesKey)
        == Lookup(d3, BlacklistFilesKey);
    assert Lookup(d, OutputKey) == Lookup(d1, OutputKey) == Lookup(d2, OutputKey) == Lookup(d3, OutputKey)
        == Lookup(d4, OutputKey);
    assert Lookup(d, FormatKey) == Lookup(d1, FormatKey) == Lookup(d2, FormatKey) == Lookup(d3, FormatKey)
        == Lookup(d4, FormatKey) == Lookup(d5, FormatKey);
  }

  /** A new listener's options satisfy what the suite start needs. */
  lemma DefaultsAreWellTyped()
    ensures ListOptionsAreArrays(Defaults)
  {
    DefaultsLookup();
  }

  /** Options that supply arrays for the list-valued keys they mention keep the suite start well-typed. */
  lemma SetOptionsKeepsListOptions(current: PhpArray, given: PhpArray)
    requires ListOptionsAreArrays(current)
    requires forall k :: k in {WhitelistKey, BlacklistKey, WhitelistFilesKey, BlacklistFilesKey} && k in Keys(given) ==> IsArrayOption(given, k)
    ensures ListOptionsAreArrays(SetOptions(current, given))
  {
  }
}

=== FILE: php.dfy ===
/**
  PHP values and ordered arrays, as far as the listener relies on them.

  A PHP array is an ordered dictionary whose keys are integers or strings.
  It is modelled as the sequence of its entries in insertion order; lookup
  finds the first entry with a given key, so a well-formed array (one entry
  per key) behaves exactly like the PHP value.
 */
module Php {

  datatype Option<+T> = None | Some(value: T)

  datatype Key = IntKey(i: int) | StrKey(s: string)

  /** The PHP types the configuration can carry. An object and a resource
      (open or closed) are never empty, never a string or an array. */
  datatype Value =
    | Null
    | Bool(b: bool)
    | Int(i: int)
    | Str(s: string)
    | Arr(entries: seq<Entry>)
    | Object(className: string)
    | Resource(closed: bool)

  datatype Entry = Entry(key: Key, val: Value)

  type PhpArray = seq<Entry>

  function Keys(a: PhpArray): set<Key>
  {
    set i | 0 <= i < |a| :: a[i].key
  }

  /** At most one entry per key: every array PHP itself builds is like this. */
  ghost predicate WellFormed(a: PhpArray)
  {
    forall i, j :: 0 <= i < j < |a| ==> a[i].key != a[j].key
  }

  /** The values in iteration (`foreach`) order. */
  function Values(a: PhpArray): (vs: seq<Value>)
    ensures |vs| == |a|
    ensures forall i :: 0 <= i < |a| ==> vs[i] == a[i].val
  {
    seq(|a|, i requires 0 <= i < |a| => a[i].val)
  }

  /** A list literal `[v0, v1, ...]`: keys 0, 1, ... in order. */
  function List(vs: seq<Value>): (a: PhpArray)
    ensures IsList(a)
    ensures Values(a) == vs
  {
    seq(|vs|, i requires 0 <= i < |vs| => Entry(IntKey(i), vs[i]))
  }

  ghost predicate IsList(a: PhpArray)
  {
    forall i :: 0 <= i < |a| ==> a[i].key == IntKey(i)
  }

  /** `$a[$k]` for a present key; `None` when the key is missing. */
  function Lookup(a: PhpArray, k: Key): (r: Option<Value>)
    ensures r.Some? <==> k in Keys(a)
    ensures r.Some? ==> Entry(k, r.value) in a
  {
    if |a| == 0 then None
    else if a[0].key == k then Some(a[0].val)
    else
      KeysCons(a);
      Lookup(a[1..], k)
  }

  lemma KeysCons(a: PhpArray)
    requires |a| > 0
    ensures Keys(a) == {a[0].key} + Keys(a[1..])
  {
    forall k | k in Keys(a)
      ensures k in {a[0].key} + Keys(a[1..])
    {
      var i :| 0 <= i < |a| && a[i].key == k;
      if i > 0 {
        assert a[1..][i - 1].key == k;
      }
    }
    forall k | k in Keys(a[1..])
      ensures k in Keys(a)
    {
      var i :| 0 <= i < |a[1..]| && a[1..][i].key == k;
      assert a[i + 1].key == k;
    }
  }

  lemma KeysSingleton(e: Entry)
    ensures Keys([e]) == {e.key}
  {
    assert [e][0] == e;
  }

  lemma KeysConcat(a: PhpArray, c: PhpArray)
    ensures Keys(a + c) == Keys(a) + Keys(c)
  {
    forall k | k in Keys(a + c)
      ensures k in Keys(a) + Keys(c)
    {
      var i :| 0 <= i < |a + c| && (a + c)[i].key == k;
      if i >= |a| {
        assert c[i - |a|].key == k;
      }
    }
    forall k | k in Keys(c)
      ensures k in Keys(a + c)
    {
      var i :| 0 <= i < |c| && c[i].key == k;
      assert (a + c)[|a| + i].key == k;
    }
    forall k | k in Keys(a)
      ensures k in Keys(a + c)
    {
      var i :| 0 <= i < |a| && a[i].key == k;
      assert (a + c)[i].key == k;
    }
  }

  lemma {:induction false} LookupConcat(a: PhpArray, c: PhpArray)
    ensures forall k :: Lookup(a + c, k) == if k in Keys(a) then Lookup(a, k) else Lookup(c, k)
  {
    if |a| > 0 {
      KeysCons(a);
      assert (a + c)[1..] == a[1..] + c;
      LookupConcat(a[1..], c);
    } else {
      assert a + c == c;
    }
  }

  /** Entries added after an array leave its lookups alone. */
  lemma LookupPrefix(a: PhpArray, b: PhpArray, k: Key)
    requires a <= b && k in Keys(a)
    ensures Lookup(b, k) == Lookup(a, k)
  {
    assert b == a + b[|a|..];
    LookupConcat(a, b[|a|..]);
  }

  /** The entries of `b` whose keys are not in `ks`, in their order. */
  function Missing(b: PhpArray, ks: set<Key>): (r: PhpArray)
    ensures Keys(r) == Keys(b) - ks
    ensures forall k :: k !in ks ==> Lookup(r, k) == Lookup(b, k)
    ensures forall e :: e in r ==> e in b && e.key !in ks
  {
    if |b| == 0 then []
    else
      KeysCons(b);
      var rest := Missing(b[1..], ks);
      if b[0].key in ks then rest
      else
        KeysCons([b[0]] + rest);
        assert ([b[0]] + rest)[1..] == rest;
        [b[0]] + rest
  }

  /**
    PHP's array union `a + b`: every entry of `a`, then the entries of `b`
    whose keys `a` does not have. On a shared key the left operand wins and
    the right operand's entry is dropped, whatever its value.
   */
  function Union(a: PhpArray, b: PhpArray): (r: PhpArray)
    ensures Keys(r) == Keys(a) + Keys(b)
    ensures a <= r
    ensures forall k :: Lookup(r, k) == if k in Keys(a) then Lookup(a, k) else Lookup(b, k)
    ensures forall e :: e in r ==> e in a || (e in b && e.key !in Keys(a))
  {
    var m := Missing(b, Keys(a));
    KeysConcat(a, m);
    LookupConcat(a, m);
    a + m
  }

  function MaxIntKey(a: PhpArray): (r: Option<int>)
    ensures r.None? <==> forall i :: IntKey(i) !in Keys(a)
    ensures r.Some? ==> IntKey(r.value) in Keys(a) && forall i :: IntKey(i) in Keys(a) ==> i <= r.value
  {
    if |a| == 0 then None
    else
      KeysCons(a);
      var rest := MaxIntKey(a[1..]);
      match a[0].key
      case StrKey(_) => rest
      case IntKey(n) =>
        if rest.Some? && rest.value > n then rest else Some(n)
  }

  /**
    The key `$a[] = v` uses: one past the largest integer key, or 0 when the
    array has no integer key (PHP 8.3 and later, also for negative keys).
   */
  function NextIndex(a: PhpArray): (n: int)
    ensures forall i :: IntKey(i) in Keys(a) ==> i < n
    ensures n == 0 || IntKey(n - 1) in Keys(a)
    ensures (forall i :: IntKey(i) !in Keys(a)) ==> n == 0
  {
    match MaxIntKey(a)
    case None => 0
    case Some(m) => m + 1
  }

  /** `$a[] = v`: appends `v` under a fresh integer key. */
  function Append(a: PhpArray, v: Value): (r: PhpArray)
    ensures a <= r && |r| == |a| + 1
    ensures r[|a|] == Entry(IntKey(NextIndex(a)), v)
    ensures Keys(r) == Keys(a) + {IntKey(NextIndex(a))}
    ensures IntKey(NextIndex(a)) !in Keys(a)
  {
    var last := [Entry(IntKey(NextIndex(a)), v)];
    KeysConcat(a, last);
    KeysCons(last);
    assert last[1..] == [];
    a + last
  }

  lemma {:induction false} MissingConcat(x: PhpArray, y: PhpArray, ks: set<Key>)
    ensures Missing(x + y, ks) == Missing(x, ks) + Missing(y, ks)
  {
    if |x| == 0 {
      assert x + y == y;
    } else {
      assert (x + y)[0] == x[0];
      assert (x + y)[1..] == x[1..] + y;
      MissingConcat(x[1..], y, ks);
    }
  }

  lemma {:induction false} MissingCovered(x: PhpArray, ks: set<Key>)
    requires Keys(x) <= ks
    ensures Missing(x, ks) == []
  {
    if |x| > 0 {
      KeysCons(x);
      MissingCovered(x[1..], ks);
    }
  }

  lemma {:induction false} MissingDisjoint(x: PhpArray, ks: set<Key>)
    requires Keys(x) !! ks
    ensures Missing(x, ks) == x
  {
    if |x| > 0 {
      KeysCons(x);
      MissingDisjoint(x[1..], ks);
    }
  }

  /** Adding the same right operand twice changes nothing: `a + (a + b) == a + b`. */
  lemma {:induction false} UnionIdempotent(a: PhpArray, b: PhpArray)
    ensures Union(a, Union(a, b)) == Union(a, b)
  {
    var m := Missing(b, Keys(a));
    assert Union(a, b) == a + m;
    KeysConcat(a, m);
    assert Keys(a + m) == Keys(a) + Keys(m);
    calc {
      Union(a, a + m);
      a + Missing(a + m, Keys(a));
      { MissingConcat(a, m, Keys(a)); }
      a + (Missing(a, Keys(a)) + Missing(m, Keys(a)));
      { MissingCovered(a, Keys(a)); MissingDisjoint(m, Keys(a)); }
      a + ([] + m);
      { assert [] + m == m; }
      a + m;
    }
  }

  lemma ListKeys(a: PhpArray)
    requires IsList(a)
    ensures forall k: Key :: k in Keys(a) <==> k.IntKey? && 0 <= k.i < |a|
  {
    forall k: Key | k.IntKey? && 0 <= k.i < |a|
      ensures k in Keys(a)
    {
      assert a[k.i].key == k;
    }
  }

  ghost predicate IndexedFrom(b: PhpArray, base: int)
  {
    forall i :: 0 <= i < |b| ==> b[i].key == IntKey(base + i)
  }

  lemma {:induction false} MissingOfIndexed(b: PhpArray, base: nat, a: PhpArray)
    requires IsList(a) && IndexedFrom(b, base)
    ensures var drop := if |a| <= base then 0 else if |a| - base <= |b| then |a| - base else |b|;
            Missing(b, Keys(a)) == b[drop..]
  {
    ListKeys(a);
    if |b| > 0 {
      assert b[0].key == IntKey(base);
      assert IndexedFrom(b[1..], base + 1) by {
        forall i | 0 <= i < |b[1..]|
          ensures b[1..][i].key == IntKey(base + 1 + i)
        {
          assert b[1..][i] == b[i + 1];
        }
      }
      MissingOfIndexed(b[1..], base + 1, a);
      if base >= |a| {
        assert [b[0]] + b[1..] == b;
      }
    }
  }

  /**
    On two lists, `a + b` keeps all of `a` and only the entries of `b` from
    position `|a|` on: the first `|a|` entries of `b` are lost, because their
    keys 0 .. |a|-1 are already taken.
   */
  lemma {:induction false} ListUnionDropsLeadingEntries(a: PhpArray, b: PhpArray)
    requires IsList(a) && IsList(b)
    ensures Union(a, b) == a + b[if |a| <= |b| then |a| else |b|..]
  {
    assert IndexedFrom(b, 0);
    MissingOfIndexed(b, 0, a);
  }

  /** On two lists, `a + b` is again a list, as long as the longer of the two. */
  lemma ListUnionIsList(a: PhpArray, b: PhpArray)
    requires IsList(a) && IsList(b)
    ensures IsList(Union(a, b))
    ensures |Union(a, b)| == if |a| <= |b| then |b| else |a|
  {
    ListUnionDropsLeadingEntries(a, b);
  }

  lemma WellFormedConcat(a: PhpArray, c: PhpArray)
    requires WellFormed(a) && WellFormed(c) && Keys(a) !! Keys(c)
    ensures WellFormed(a + c)
  {
    forall i, j | 0 <= i < j < |a + c|
      ensures (a + c)[i].key != (a + c)[j].key
    {
      if i < |a| <= j {
        assert a[i].key in Keys(a);
        assert c[j - |a|].key in Keys(c);
      }
    }
  }

  lemma {:induction false} MissingWellFormed(b: PhpArray, ks: set<Key>)
    requires WellFormed(b)
    ensures WellFormed(Missing(b, ks))
  {
    if |b| > 0 {
      KeysCons(b);
      assert WellFormed(b[1..]) by {
        forall i, j | 0 <= i < j < |b[1..]|
          ensures b[1..][i].key != b[1..][j].key
        {
          assert b[1..][i] == b[i + 1] && b[1..][j] == b[j + 1];
        }
      }
      MissingWellFormed(b[1..], ks);
      if b[0].key !in ks {
        assert b[0].key !in Keys(b[1..]);
        assert WellFormed([b[0]]);
        WellFormedConcat([b[0]], Missing(b[1..], ks));
      }
    }
  }

  /** The union of two PHP arrays is again a PHP array: one entry per key. */
  lemma UnionWellFormed(a: PhpArray, b: PhpArray)
    requires WellFormed(a) && WellFormed(b)
    ensures WellFormed(Union(a, b))
  {
    MissingWellFormed(b, Keys(a));
    WellFormedConcat(a, Missing(b, Keys(a)));
  }

  /** Appending keeps one entry per key, since the appended key is fresh. */
  lemma AppendWellFormed(a: PhpArray, v: Value)
    requires WellFormed(a)
    ensures WellFormed(Append(a, v))
  {
    var last := [Entry(IntKey(NextIndex(a)), v)];
    KeysCons(last);
    assert last[1..] == [];
    WellFormedConcat(a, last);
  }

  /** Appending to a list gives a list: the new key is the old length. */
  lemma AppendToList(a: PhpArray, v: Value)
    requires IsList(a)
    ensures Append(a, v) == a + [Entry(IntKey(|a|), v)]
  {
    ListKeys(a);
    if |a| > 0 {
      assert a[|a| - 1].key in Keys(a);
    }
  }

  /** PHP's `empty()`: a missing key, null, false, 0, "", "0" and [] are empty. */
  predicate IsEmpty(v: Option<Value>)
  {
    match v
    case None => true
    case Some(x) =>
      match x
      case Null => true
      case Bool(b) => !b
      case Int(i) => i == 0
      case Str(s) => s == "" || s == "0"
      case Arr(es) => es == []
      case Object(_) => false
      case Resource(_) => false
  }

  /** `$v ?? $default`: the default replaces a missing key or a null. */
  function Coalesce(v: Option<Value>, default: Value): (r: Value)
    ensures v.Some? && v.value != Null ==> r == v.value
    ensures v.None? || v.value == Null ==> r == default
  {
    match v
    case Some(x) => if x.Null? then default else x
    case None => default
  }

  /** PHP's `gettype()`. */
  function TypeName(v: Value): string
  {
    match v
    case Null => "NULL"
    case Bool(_) => "boolean"
    case Int(_) => "integer"
    case Str(_) => "string"
    case Arr(_) => "array"
    case Object(_) => "object"
    case Resource(closed) => if closed then "resource (closed)" else "resource"
  }
}

=== FILE: php_strings.dfy ===
/**
  PHP's `strtr($s, $pairs)` with an array of replacement pairs: at every
  position the longest key that starts there is replaced, and the scan
  resumes after it, so replaced text is never scanned again. Empty keys
  never match.
 */
module PhpStrings {
  import opened Php

  predicate IsPrefix(p: string, s: string)
  {
    |p| <= |s| && s[..|p|] == p
  }

  /** The pair whose key is the longest non-empty prefix of `s`, if any; the later pair on a tie, which needs a repeated key. */
  function LongestMatch(s: string, pairs: seq<(string, string)>): Option<(string, string)>
  {
    if |pairs| == 0 then None
    else
      var rest := LongestMatch(s, pairs[1..]);
      var p := pairs[0];
      if |p.0| > 0 && IsPrefix(p.0, s) && (rest.None? || |rest.value.0| < |p.0|) then Some(p) else rest
  }

  /** The match found is a pair whose key starts `s`, and no matching key is longer; none is found only when no key matches. */
  lemma {:induction false} LongestMatchIsLongest(s: string, pairs: seq<(string, string)>)
    ensures var r := LongestMatch(s, pairs);
            && (r.Some? ==> r.value in pairs && |r.value.0| > 0 && IsPrefix(r.value.0, s))
            && (r.Some? ==> forall p :: p in pairs && |p.0| > 0 && IsPrefix(p.0, s) ==> |p.0| <= |r.value.0|)
            && (r.None? <==> forall p :: p in pairs && |p.0| > 0 ==> !IsPrefix(p.0, s))
  {
    if |pairs| > 0 {
      LongestMatchIsLongest(s, pairs[1..]);
      assert forall q :: q in pairs ==> q == pairs[0] || q in pairs[1..];
    }
  }

  function Strtr(s: string, pairs: seq<(string, string)>): string
    decreases |s|
  {
    if |s| == 0 then ""
    else
      LongestMatchIsLongest(s, pairs);
      match LongestMatch(s, pairs)
      case Some(p) => p.1 + Strtr(s[|p.0|..], pairs)
      case None => [s[0]] + Strtr(s[1..], pairs)
  }

  const IdentifierTemplate := "%spec%::%example%"

  /**
    The template the listener formats example names with yields the class
    name, two colons and the example name, whatever characters the two names
    hold (including `%spec%` or `%example%` themselves).
   */
  lemma {:induction false} IdentifierFormat(specClass: string, exampleName: string)
    ensures Strtr(IdentifierTemplate, [("%spec%", specClass), ("%example%", exampleName)]) == specClass + "::" + exampleName
  {
    var pairs := [("%spec%", specClass), ("%example%", exampleName)];
    var s3 := "%example%" + "";
    var s2 := [':'] + s3;
    var s1 := [':'] + s2;
    assert IdentifierTemplate == "%spec%" + s1;
    SpecReplaced(s1, pairs);
    OtherCharKept(':', s2, pairs);
    OtherCharKept(':', s3, pairs);
    ExampleReplaced("", pairs);
    assert Strtr("", pairs) == "";
    assert [':'] + ([':'] + (exampleName + "")) == "::" + exampleName;
  }

  lemma SpecReplaced(rest: string, pairs: seq<(string, string)>)
    requires |pairs| == 2 && pairs[0].0 == "%spec%" && pairs[1].0 == "%example%"
    ensures Strtr("%spec%" + rest, pairs) == pairs[0].1 + Strtr(rest, pairs)
  {
    var s := "%spec%" + rest;
    TwoPairMatch(s, pairs);
    PrefixOfConcat("%spec%", rest);
    assert s[1] == "%spec%"[1] == 's';
    DiffersAt("%example%", s, 1);
    assert s[6..] == rest;
  }

  lemma ExampleReplaced(rest: string, pairs: seq<(string, string)>)
    requires |pairs| == 2 && pairs[0].0 == "%spec%" && pairs[1].0 == "%example%"
    ensures Strtr("%example%" + rest, pairs) == pairs[1].1 + Strtr(rest, pairs)
  {
    var s := "%example%" + rest;
    TwoPairMatch(s, pairs);
    PrefixOfConcat("%example%", rest);
    assert s[1] == "%example%"[1] == 'e';
    DiffersAt("%spec%", s, 1);
    assert s[9..] == rest;
  }

  lemma OtherCharKept(c: char, rest: string, pairs: seq<(string, string)>)
    requires |pairs| == 2 && pairs[0].0 == "%spec%" && pairs[1].0 == "%example%"
    requires c != '%'
    ensures Strtr([c] + rest, pairs) == [c] + Strtr(rest, pairs)
  {
    var s := [c] + rest;
    TwoPairMatch(s, pairs);
    DiffersAt("%spec%", s, 0);
    DiffersAt("%example%", s, 0);
    assert s[1..] == rest;
  }

  lemma PrefixOfConcat(p: string, t: string)
    ensures IsPrefix(p, p + t)
  {
    assert (p + t)[..|p|] == p;
  }

  lemma DiffersAt(p: string, s: string, i: nat)
    requires i < |p| && i < |s| && p[i] != s[i]
    ensures !IsPrefix(p, s)
  {
    if |p| <= |s| {
      assert s[..|p|][i] == s[i];
    }
  }

  /** The longest match among two pairs with non-empty keys, case by case. */
  lemma TwoPairMatch(s: string, pairs: seq<(string, string)>)
    requires |pairs| == 2 && |pairs[0].0| > 0 && |pairs[1].0| > 0
    ensures LongestMatch(s, pairs)
            == if IsPrefix(pairs[0].0, s) && (!IsPrefix(pairs[1].0, s) || |pairs[1].0| < |pairs[0].0|) then Some(pairs[0])
               else if IsPrefix(pairs[1].0, s) then Some(pairs[1])
               else None
  {
    var tail := pairs[1..];
    assert tail[0] == pairs[1] && tail[1..] == [];
    assert LongestMatch(s, tail[1..]) == None;
    assert LongestMatch(s, tail) == if IsPrefix(pairs[1].0, s) then Some(pairs[1]) else None;
  }
}

=== FILE: suite_filter.dfy ===
/**
  The include/exclude computation of the suite start: blacklist entries are
  turned into a PHP array of excluded paths, then every whitelist entry is
  enumerated against it and each resulting file is included in the coverage
  filter. The file enumerator (`FileIteratorFacade::getFilesAsArray`) is an
  external library and appears as an uninterpreted function.
 */
module SuiteFilter {
  import opened Php
  import opened DirectorySpec
  import opened Options
  import opened Trace

  /** `getFilesAsArray($paths, $suffixes, $prefixes, $exclude)`. */
  type Enumerator = (Value, Value, Value, PhpArray) -> PhpArray

  /** A blacklist entry with a non-empty suffix or prefix is expanded to its files. */
  predicate Expands(s: Settings)
  {
    !IsEmpty(Some(s.suffix)) || !IsEmpty(Some(s.prefix))
  }

  /** The files a blacklist entry stands for; the enumerator is called without excludes. */
  function BlacklistFiles(s: Settings, enumerate: Enumerator): PhpArray
  {
    enumerate(s.directory, s.suffix, s.prefix, [])
  }

  /** An exclusion the accepted blacklist entry `s` contributes itself: one of its files, or its directory. */
  predicate Contributed(e: Entry, s: Settings, enumerate: Enumerator)
  {
    if Expands(s) then e in BlacklistFiles(s, enumerate) else e.val == s.directory
  }

  /** The excludes account for `s`: a key for each of its files when it expands, its directory otherwise. */
  predicate Covers(excludes: PhpArray, s: Settings, enumerate: Enumerator)
  {
    if Expands(s) then Keys(BlacklistFiles(s, enumerate)) <= Keys(excludes) else s.directory in Values(excludes)
  }

  /** One blacklist entry: `$excludes + files` when it expands, `$excludes[] = dir` otherwise. */
  function ExcludeStep(excludes: PhpArray, s: Settings, enumerate: Enumerator): (r: PhpArray)
    ensures excludes <= r
    ensures Expands(s) ==> Keys(r) == Keys(excludes) + Keys(BlacklistFiles(s, enumerate))
    ensures Expands(s) ==> forall k :: k !in Keys(excludes) ==> Lookup(r, k) == Lookup(BlacklistFiles(s, enumerate), k)
    ensures !Expands(s) ==> r[|excludes|..] == [Entry(IntKey(NextIndex(excludes)), s.directory)]
    ensures Covers(r, s, enumerate)
    ensures forall e :: e in r ==> e in excludes || Contributed(e, s, enumerate)
  {
    if Expands(s) then Union(excludes, BlacklistFiles(s, enumerate))
    else
      var r := Append(excludes, s.directory);
      assert Values(r)[|excludes|] == s.directory;
      assert forall e :: e in r ==> e in excludes || e == r[|excludes|] by {
        assert r == excludes + [r[|excludes|]];
      }
      r
  }

  /** A blacklist entry keeps the excludes one entry per key, given that the enumeration is. */
  lemma ExcludeStepWellFormed(excludes: PhpArray, s: Settings, enumerate: Enumerator)
    requires WellFormed(excludes) && WellFormed(BlacklistFiles(s, enumerate))
    ensures WellFormed(ExcludeStep(excludes, s, enumerate))
  {
    if Expands(s) {
      UnionWellFormed(excludes, BlacklistFiles(s, enumerate));
    } else {
      AppendWellFormed(excludes, s.directory);
    }
  }

  /** Normalisation accepts every specification. */
  ghost predicate AllAccepted(specs: seq<Value>)
  {
    forall i :: 0 <= i < |specs| ==> FilterDirectoryParams(specs[i]).Ok?
  }

  /** Index of the first specification that normalisation rejects, when there is one. */
  ghost predicate FirstRejected(specs: seq<Value>, i: int)
  {
    && 0 <= i < |specs|
    && FilterDirectoryParams(specs[i]).Thrown?
    && forall j :: 0 <= j < i ==> FilterDirectoryParams(specs[j]).Ok?
  }

  lemma FirstRejectedShift(specs: seq<Value>, i: int)
    requires |specs| > 0 && FilterDirectoryParams(specs[0]).Ok?
    requires FirstRejected(specs[1..], i)
    ensures FirstRejected(specs, i + 1) && specs[i + 1] == specs[1..][i]
  {
    assert forall j :: 1 <= j <= i ==> specs[j] == specs[1..][j - 1];
  }

  lemma AllAcceptedShift(specs: seq<Value>)
    requires |specs| > 0 && FilterDirectoryParams(specs[0]).Ok?
    ensures AllAccepted(specs) <==> AllAccepted(specs[1..])
  {
    assert forall j :: 1 <= j < |specs| ==> specs[j] == specs[1..][j - 1];
  }

  /** Every entry of the blacklist that normalisation accepts is accounted for in `excludes`. */
  ghost predicate CoversAccepted(excludes: PhpArray, blacklist: seq<Value>, enumerate: Enumerator)
  {
    forall i :: 0 <= i < |blacklist| && FilterDirectoryParams(blacklist[i]).Ok? ==>
      Covers(excludes, FilterDirectoryParams(blacklist[i]).value, enumerate)
  }

  /** `e` is an exclusion some accepted blacklist entry contributes. */
  ghost predicate ContributedBy(e: Entry, blacklist: seq<Value>, enumerate: Enumerator)
  {
    exists i :: 0 <= i < |blacklist| && FilterDirectoryParams(blacklist[i]).Ok?
      && Contributed(e, FilterDirectoryParams(blacklist[i]).value, enumerate)
  }

  lemma ContributedByShift(e: Entry, blacklist: seq<Value>, enumerate: Enumerator)
    requires |blacklist| > 0 && ContributedBy(e, blacklist[1..], enumerate)
    ensures ContributedBy(e, blacklist, enumerate)
  {
    var i :| 0 <= i < |blacklist[1..]| && FilterDirectoryParams(blacklist[1..][i]).Ok?
      && Contributed(e, FilterDirectoryParams(blacklist[1..][i]).value, enumerate);
    assert blacklist[1..][i] == blacklist[i + 1];
  }

  /** What is covered stays covered when entries are added after the ones already there. */
  lemma CoversPrefix(a: PhpArray, b: PhpArray, s: Settings, enumerate: Enumerator)
    requires a <= b && Covers(a, s, enumerate)
    ensures Covers(b, s, enumerate)
  {
    if Expands(s) {
      assert Keys(a) <= Keys(b) by {
        forall k | k in Keys(a) ensures k in Keys(b) {
          var i :| 0 <= i < |a| && a[i].key == k;
          assert b[i] == a[i];
        }
      }
    } else {
      var i :| 0 <= i < |a| && Values(a)[i] == s.directory;
      assert Values(b)[i] == b[i].val == a[i].val;
    }
  }

  lemma CoversAcceptedShift(r: PhpArray, blacklist: seq<Value>, enumerate: Enumerator)
    requires |blacklist| > 0 && FilterDirectoryParams(blacklist[0]).Ok?
    requires Covers(r, FilterDirectoryParams(blacklist[0]).value, enumerate)
    requires CoversAccepted(r, blacklist[1..], enumerate)
    ensures CoversAccepted(r, blacklist, enumerate)
  {
    forall i | 1 <= i < |blacklist| && FilterDirectoryParams(blacklist[i]).Ok?
      ensures Covers(r, FilterDirectoryParams(blacklist[i]).value, enumerate)
    {
      assert blacklist[i] == blacklist[1..][i - 1];
    }
  }

  /**
    The blacklist loop. It stops with the error of the first rejected entry;
    otherwise every exclusion already collected survives, at its place, every
    entry's directory or files are accounted for, and nothing but those gets in.
   */
  function Excludes(excludes: PhpArray, blacklist: seq<Value>, enumerate: Enumerator): (r: Outcome<PhpArray>)
    ensures r.Ok? ==> excludes <= r.value
    ensures r.Ok? <==> AllAccepted(blacklist)
    ensures r.Thrown? ==> exists i :: FirstRejected(blacklist, i) && FilterDirectoryParams(blacklist[i]) == Thrown(r.error)
    ensures r.Ok? ==> CoversAccepted(r.value, blacklist, enumerate)
    ensures r.Ok? ==> forall e :: e in r.value ==> e in excludes || ContributedBy(e, blacklist, enumerate)
    decreases |blacklist|
  {
    if |blacklist| == 0 then Ok(excludes)
    else
      match FilterDirectoryParams(blacklist[0])
      case Thrown(e) =>
        assert FirstRejected(blacklist, 0);
        Thrown(e)
      case Ok(s) =>
        var step := ExcludeStep(excludes, s, enumerate);
        var r := Excludes(step, blacklist[1..], enumerate);
        AllAcceptedShift(blacklist);
        assert r.Thrown? ==> exists i :: FirstRejected(blacklist, i) && FilterDirectoryParams(blacklist[i]) == Thrown(r.error) by {
          if r.Thrown? {
            var i :| FirstRejected(blacklist[1..], i) && FilterDirectoryParams(blacklist[1..][i]) == Thrown(r.error);
            FirstRejectedShift(blacklist, i);
          }
        }
        assert r.Ok? ==> CoversAccepted(r.value, blacklist, enumerate) by {
          if r.Ok? {
            CoversPrefix(step, r.value, s, enumerate);
            CoversAcceptedShift(r.value, blacklist, enumerate);
          }
        }
        assert r.Ok? ==> forall e :: e in r.value ==> e in excludes || ContributedBy(e, blacklist, enumerate) by {
          if r.Ok? {
            forall e | e in r.value && e !in excludes
              ensures ContributedBy(e, blacklist, enumerate)
            {
              if e in step {
                assert Contributed(e, FilterDirectoryParams(blacklist[0]).value, enumerate);
              } else {
                ContributedByShift(e, blacklist, enumerate);
              }
            }
          }
        }
        r
  }

  /**
    The blacklist loop over `a + b` runs the loop over `a`, then goes on
    over `b` from the excludes it built; an error in `a` ends it there.
   */
  lemma {:induction false} ExcludesConcat(excludes: PhpArray, a: seq<Value>, b: seq<Value>, enumerate: Enumerator)
    ensures Excludes(excludes, a + b, enumerate)
            == match Excludes(excludes, a, enumerate)
               case Ok(m) => Excludes(m, b, enumerate)
               case Thrown(e) => Thrown(e)
    decreases |a|
  {
    if |a| == 0 {
      assert a + b == b;
    } else {
      assert (a + b)[0] == a[0];
      assert (a + b)[1..] == a[1..] + b;
      match FilterDirectoryParams(a[0])
      case Thrown(_) =>
      case Ok(s) => ExcludesConcat(ExcludeStep(excludes, s, enumerate), a[1..], b, enumerate);
    }
  }

  /**
    What the first `i` blacklist entries exclude stays, at its place, in what
    the whole blacklist excludes: on a key two entries share, the earlier
    entry's path is the one kept.
   */
  lemma ExcludesPrefix(excludes: PhpArray, blacklist: seq<Value>, i: int, enumerate: Enumerator)
    requires 0 <= i <= |blacklist|
    ensures Excludes(excludes, blacklist, enumerate).Ok? ==>
              && Excludes(excludes, blacklist[..i], enumerate).Ok?
              && Excludes(excludes, blacklist[..i], enumerate).value <= Excludes(excludes, blacklist, enumerate).value
    ensures Excludes(excludes, blacklist[..i], enumerate).Thrown? ==>
              Excludes(excludes, blacklist, enumerate) == Excludes(excludes, blacklist[..i], enumerate)
  {
    assert blacklist[..i] + blacklist[i..] == blacklist;
    ExcludesConcat(excludes, blacklist[..i], blacklist[i..], enumerate);
    match Excludes(excludes, blacklist[..i], enumerate)
    case Thrown(_) =>
    case Ok(m) =>
      assert Excludes(excludes, blacklist, enumerate) == Excludes(m, blacklist[i..], enumerate);
  }

  /** A one-entry blacklist is one step, or that entry's error. */
  lemma ExcludesSingle(excludes: PhpArray, x: Value, enumerate: Enumerator)
    ensures FilterDirectoryParams(x).Thrown? ==> Excludes(excludes, [x], enumerate) == Thrown(FilterDirectoryParams(x).error)
    ensures FilterDirectoryParams(x).Ok? ==>
              Excludes(excludes, [x], enumerate) == Ok(ExcludeStep(excludes, FilterDirectoryParams(x).value, enumerate))
  {
    assert [x][0] == x && [x][1..] == [];
  }

  /** Entry `i` of the blacklist acts on the excludes the entries before it built, by one step. */
  lemma ExcludesSnoc(excludes: PhpArray, blacklist: seq<Value>, i: int, enumerate: Enumerator)
    requires 0 <= i < |blacklist|
    ensures Excludes(excludes, blacklist[..i + 1], enumerate)
            == match Excludes(excludes, blacklist[..i], enumerate)
               case Thrown(e) => Thrown(e)
               case Ok(m) =>
                 match FilterDirectoryParams(blacklist[i])
                 case Thrown(e) => Thrown(e)
                 case Ok(s) => Ok(ExcludeStep(m, s, enumerate))
  {
    assert blacklist[..i] + [blacklist[i]] == blacklist[..i + 1];
    ExcludesConcat(excludes, blacklist[..i], [blacklist[i]], enumerate);
    match Excludes(excludes, blacklist[..i], enumerate)
    case Thrown(_) =>
    case Ok(m) => ExcludesSingle(m, blacklist[i], enumerate);
  }

  /**
    A key that entry `i`'s files bring in first keeps entry `i`'s file to the
    end of the loop, whatever later entries enumerate at that key.
   */
  lemma ExcludesKeepEarlierFile(excludes: PhpArray, blacklist: seq<Value>, i: int, s: Settings, k: Key, enumerate: Enumerator)
    requires 0 <= i < |blacklist| && FilterDirectoryParams(blacklist[i]) == Ok(s) && Expands(s)
    requires Excludes(excludes, blacklist, enumerate).Ok? && k in Keys(BlacklistFiles(s, enumerate))
    ensures Excludes(excludes, blacklist[..i], enumerate).Ok?
    ensures k !in Keys(Excludes(excludes, blacklist[..i], enumerate).value) ==>
              Lookup(Excludes(excludes, blacklist, enumerate).value, k) == Lookup(BlacklistFiles(s, enumerate), k)
  {
    ExcludesPrefix(excludes, blacklist, i, enumerate);
    var before := Excludes(excludes, blacklist[..i], enumerate).value;
    var step := ExcludeStep(before, s, enumerate);
    var all := Excludes(excludes, blacklist, enumerate).value;
    assert step <= all by {
      ExcludesSnoc(excludes, blacklist, i, enumerate);
      ExcludesPrefix(excludes, blacklist, i + 1, enumerate);
    }
    if k !in Keys(before) {
      LookupPrefix(step, all, k);
    }
  }

  /**
    `[$directory] + whitelist_files`: the directory sits at key 0, so the
    whitelisted file stored at key 0 never gets in; every other key is kept.
   */
  function IncludeRoots(directory: Value, whitelistFiles: PhpArray): (roots: PhpArray)
    ensures Lookup(roots, IntKey(0)) == Some(directory)
    ensures forall k :: k != IntKey(0) ==> Lookup(roots, k) == Lookup(whitelistFiles, k)
    ensures Keys(roots) == {IntKey(0)} + Keys(whitelistFiles)
  {
    var head := [Entry(IntKey(0), directory)];
    KeysCons(head);
    assert head[1..] == [];
    Union(head, whitelistFiles)
  }

  /** The files one whitelist entry contributes. */
  function WhitelistFiles(s: Settings, whitelistFiles: PhpArray, excludes: PhpArray, enumerate: Enumerator): PhpArray
  {
    enumerate(Arr(IncludeRoots(s.directory, whitelistFiles)), s.suffix, s.prefix, excludes)
  }

  /** The whitelist loop: every enumerated file is included, until an entry is rejected. */
  function Includes(whitelist: seq<Value>, whitelistFiles: PhpArray, excludes: PhpArray, enumerate: Enumerator): (r: Effects)
    ensures forall c :: c in r.calls ==> c.IncludeFile?
    ensures r.thrown.None? <==> AllAccepted(whitelist)
    ensures r.thrown.Some? ==> exists i :: FirstRejected(whitelist, i) && FilterDirectoryParams(whitelist[i]) == Thrown(r.thrown.value)
    decreases |whitelist|
  {
    if |whitelist| == 0 then Effects([], None)
    else
      match FilterDirectoryParams(whitelist[0])
      case Thrown(e) =>
        assert FirstRejected(whitelist, 0);
        Effects([], Some(e))
      case Ok(s) =>
        var files := WhitelistFiles(s, whitelistFiles, excludes, enumerate);
        var rest := Includes(whitelist[1..], whitelistFiles, excludes, enumerate);
        AllAcceptedShift(whitelist);
        assert rest.thrown.Some? ==> exists i :: FirstRejected(whitelist, i) && FilterDirectoryParams(whitelist[i]) == Thrown(rest.thrown.value) by {
          if rest.thrown.Some? {
            var i :| FirstRejected(whitelist[1..], i) && FilterDirectoryParams(whitelist[1..][i]) == Thrown(rest.thrown.value);
            FirstRejectedShift(whitelist, i);
          }
        }
        var calls := IncludeCalls(Values(files)) + rest.calls;
        assert forall c :: c in calls ==> c in IncludeCalls(Values(files)) || c in rest.calls;
        Effects(calls, rest.thrown)
  }

  function Blacklist(options: PhpArray): seq<Value>
    requires ListOptionsAreArrays(options)
  {
    Values(ArrayOption(options, BlacklistKey))
  }

  function Whitelist(options: PhpArray): seq<Value>
    requires ListOptionsAreArrays(options)
  {
    Values(ArrayOption(options, WhitelistKey))
  }

  lemma FirstRejectedUnique(specs: seq<Value>, i: int, j: int)
    requires FirstRejected(specs, i) && FirstRejected(specs, j)
    ensures i == j
  {
  }

  lemma FirstRejectedPrefix(specs: seq<Value>, i: int)
    requires FirstRejected(specs, i)
    ensures AllAccepted(specs[..i]) && !AllAccepted(specs)
  {
    assert forall j :: 0 <= j < i ==> specs[..i][j] == specs[j];
  }

  /**
    The suite start with coverage on: get the filter, compute the excludes,
    include the whitelist. A rejected blacklist entry ends it right after the
    filter is obtained; a rejected whitelist entry ends it after the files of
    the entries before it; otherwise every enumerated file is included.
   */
  function ConfigureFilter(options: PhpArray, enumerate: Enumerator): (r: Effects)
    requires ListOptionsAreArrays(options)
    ensures |r.calls| > 0 && r.calls[0] == Filter
    ensures forall c :: c in r.calls[1..] ==> c.IncludeFile?
    ensures r.thrown.None? <==> AllAccepted(Blacklist(options)) && AllAccepted(Whitelist(options))
    ensures forall i :: FirstRejected(Blacklist(options), i) ==>
              r == Effects([Filter], Some(FilterDirectoryParams(Blacklist(options)[i]).error))
    ensures AllAccepted(Blacklist(options)) ==>
              var excludes := Excludes(ArrayOption(options, BlacklistFilesKey), Blacklist(options), enumerate).value;
              forall i :: FirstRejected(Whitelist(options), i) ==>
                var included := PerEntryFiles(Whitelist(options)[..i], ArrayOption(options, WhitelistFilesKey), excludes, enumerate);
                r == Effects([Filter] + IncludeCalls(Flatten(included)), Some(FilterDirectoryParams(Whitelist(options)[i]).error))
    ensures AllAccepted(Blacklist(options)) && AllAccepted(Whitelist(options)) ==>
              var excludes := Excludes(ArrayOption(options, BlacklistFilesKey), Blacklist(options), enumerate).value;
              var included := PerEntryFiles(Whitelist(options), ArrayOption(options, WhitelistFilesKey), excludes, enumerate);
              r == Effects([Filter] + IncludeCalls(Flatten(included)), None)
  {
    var blacklist, whitelist := Blacklist(options), Whitelist(options);
    var whitelistFiles := ArrayOption(options, WhitelistFilesKey);
    match Excludes(ArrayOption(options, BlacklistFilesKey), blacklist, enumerate)
    case Thrown(e) =>
      assert forall i :: FirstRejected(blacklist, i) ==> e == FilterDirectoryParams(blacklist[i]).error by {
        var j :| FirstRejected(blacklist, j) && FilterDirectoryParams(blacklist[j]) == Thrown(e);
        forall i | FirstRejected(blacklist, i) ensures e == FilterDirectoryParams(blacklist[i]).error {
          FirstRejectedUnique(blacklist, i, j);
        }
      }
      Effects([Filter], Some(e))
    case Ok(excludes) =>
      var includes := Includes(whitelist, whitelistFiles, excludes, enumerate);
      var calls := [Filter] + includes.calls;
      assert calls[1..] == includes.calls;
      assert forall i :: FirstRejected(blacklist, i) ==> false by {
        forall i | FirstRejected(blacklist, i) ensures false {
          FirstRejectedPrefix(blacklist, i);
        }
      }
      assert forall i :: FirstRejected(whitelist, i) ==>
               Effects(calls, includes.thrown)
               == Effects([Filter] + IncludeCalls(Flatten(PerEntryFiles(whitelist[..i], whitelistFiles, excludes, enumerate))),
                          Some(FilterDirectoryParams(whitelist[i]).error)) by {
        forall i | FirstRejected(whitelist, i)
          ensures includes == Effects(IncludeCalls(Flatten(PerEntryFiles(whitelist[..i], whitelistFiles, excludes, enumerate))),
                                      Some(FilterDirectoryParams(whitelist[i]).error))
        {
          IncludesStopAtFirstRejected(whitelist, whitelistFiles, excludes, enumerate, i);
          FirstRejectedPrefix(whitelist, i);
          IncludesFollowEnumeration(whitelist[..i], whitelistFiles, excludes, enumerate);
        }
      }
      assert AllAccepted(whitelist) ==>
               includes == Effects(IncludeCalls(Flatten(PerEntryFiles(whitelist, whitelistFiles, excludes, enumerate))), None) by {
        if AllAccepted(whitelist) {
          IncludesFollowEnumeration(whitelist, whitelistFiles, excludes, enumerate);
        }
      }
      Effects(calls, includes.thrown)
  }

  /** A bare-string blacklist entry gets suffix ".php", so it is expanded, never excluded as a directory. */
  lemma BareStringBlacklistEntryExpands(excludes: PhpArray, path: string, enumerate: Enumerator)
    requires path != "" && path != "0"
    ensures Excludes(excludes, [Str(path)], enumerate) == Ok(Union(excludes, enumerate(Str(path), Str(".php"), Str(""), [])))
  {
    BareStringDefaults(path);
    assert Expands(Settings(Str(path), Str(".php"), Str("")));
    assert [Str(path)][1..] == [];
  }

  /** Only an entry whose suffix and prefix are both PHP-empty adds its directory itself. */
  lemma EmptyFiltersExcludeDirectory(excludes: PhpArray, directory: string, enumerate: Enumerator)
    requires directory != "" && directory != "0"
    ensures var spec := Arr([Entry(DirectoryKey, Str(directory)), Entry(SuffixKey, Str("")), Entry(PrefixKey, Str(""))]);
            Excludes(excludes, [spec], enumerate) == Ok(Append(excludes, Str(directory)))
  {
    var spec := Arr([Entry(DirectoryKey, Str(directory)), Entry(SuffixKey, Str("")), Entry(PrefixKey, Str(""))]);
    ExplicitEmptyFiltersKept(directory);
    assert !Expands(Settings(Str(directory), Str(""), Str("")));
    assert [spec][1..] == [];
  }

  /**
    When the excludes and the enumerated files are both lists, the files at
    positions the excludes already occupy are silently dropped.
   */
  lemma {:induction false} ExpandedListLosesLeadingFiles(excludes: PhpArray, s: Settings, enumerate: Enumerator)
    requires Expands(s)
    requires IsList(excludes) && IsList(BlacklistFiles(s, enumerate))
    ensures var files := BlacklistFiles(s, enumerate);
            ExcludeStep(excludes, s, enumerate) == excludes + files[if |excludes| <= |files| then |excludes| else |files|..]
  {
    ListUnionDropsLeadingEntries(excludes, BlacklistFiles(s, enumerate));
  }

  /**
    With the default blacklist `['test', 'vendor', 'spec']`, no blacklisted
    files and an enumerator that returns lists, the excludes hold only as
    many files as the largest of the three directories: the smaller
    expansions are swallowed by the key union.
   */
  lemma {:induction false} DefaultBlacklistKeepsLongestExpansion(enumerate: Enumerator)
    requires forall dir :: IsList(enumerate(dir, Str(".php"), Str(""), []))
    ensures var test := enumerate(Str("test"), Str(".php"), Str(""), []);
            var vendor := enumerate(Str("vendor"), Str(".php"), Str(""), []);
            var spec := enumerate(Str("spec"), Str(".php"), Str(""), []);
            var longest := if |test| <= |vendor| then (if |vendor| <= |spec| then |spec| else |vendor|)
                           else (if |test| <= |spec| then |spec| else |test|);
            var r := Excludes([], [Str("test"), Str("vendor"), Str("spec")], enumerate);
            r.Ok? && IsList(r.value) && |r.value| == longest
  {
    var test := enumerate(Str("test"), Str(".php"), Str(""), []);
    var vendor := enumerate(Str("vendor"), Str(".php"), Str(""), []);
    var spec := enumerate(Str("spec"), Str(".php"), Str(""), []);
    assert IsList(test) && IsList(vendor) && IsList(spec);
    var e1 := Union([], test);
    var e2 := Union(e1, vendor);
    assert IsList([]);
    ListUnionIsList([], test);
    ListUnionIsList(e1, vendor);
    ListUnionIsList(e2, spec);
    DefaultBlacklistExcludes(enumerate);
  }

  /** The default blacklist unions the three `.php` expansions in order. */
  lemma DefaultBlacklistExcludes(enumerate: Enumerator)
    ensures var test := enumerate(Str("test"), Str(".php"), Str(""), []);
            var vendor := enumerate(Str("vendor"), Str(".php"), Str(""), []);
            var spec := enumerate(Str("spec"), Str(".php"), Str(""), []);
            Excludes([], [Str("test"), Str("vendor"), Str("spec")], enumerate) == Ok(Union(Union(Union([], test), vendor), spec))
  {
    var blacklist := [Str("test"), Str("vendor"), Str("spec")];
    var e1 := Union([], enumerate(Str("test"), Str(".php"), Str(""), []));
    var e2 := Union(e1, enumerate(Str("vendor"), Str(".php"), Str(""), []));
    ExcludesBareStringStep([], blacklist, enumerate);
    assert blacklist[1..] == [Str("vendor"), Str("spec")];
    ExcludesBareStringStep(e1, blacklist[1..], enumerate);
    assert blacklist[1..][1..] == [Str("spec")];
    ExcludesBareStringStep(e2, blacklist[1..][1..], enumerate);
    assert blacklist[1..][1..][1..] == [];
  }

  lemma ExcludesBareStringStep(excludes: PhpArray, blacklist: seq<Value>, enumerate: Enumerator)
    requires |blacklist| > 0 && blacklist[0].Str? && blacklist[0].s != "" && blacklist[0].s != "0"
    ensures Excludes(excludes, blacklist, enumerate)
            == Excludes(Union(excludes, enumerate(blacklist[0], Str(".php"), Str(""), [])), blacklist[1..], enumerate)
  {
    BareStringDefaults(blacklist[0].s);
    assert Expands(Settings(blacklist[0], Str(".php"), Str("")));
  }

  /**
    Blacklist `['spec']`, whitelist `['src']`, no extra files: the suite start
    excludes the `.php` files found under `spec` (not the directory itself)
    and includes exactly what the enumeration of `src` returns against them.
   */
  lemma SingleEntryConfiguration(options: PhpArray, enumerate: Enumerator)
    requires Lookup(options, BlacklistKey) == Some(Arr(List([Str("spec")])))
    requires Lookup(options, WhitelistKey) == Some(Arr(List([Str("src")])))
    requires Lookup(options, BlacklistFilesKey) == Some(Arr([]))
    requires Lookup(options, WhitelistFilesKey) == Some(Arr([]))
    ensures var excludes := enumerate(Str("spec"), Str(".php"), Str(""), []);
            var included := enumerate(Arr([Entry(IntKey(0), Str("src"))]), Str(".php"), Str(""), excludes);
            ConfigureFilter(options, enumerate) == Effects([Filter] + IncludeCalls(Values(included)), None)
  {
    assert Values(List([Str("spec")])) == [Str("spec")];
    assert Values(List([Str("src")])) == [Str("src")];
    BareStringEntryExcluded("spec", enumerate);
    BareStringEntryIncluded("src", enumerate(Str("spec"), Str(".php"), Str(""), []), enumerate);
  }

  /** A single bare-string blacklist entry over no blacklisted files excludes exactly its expansion. */
  lemma BareStringEntryExcluded(path: string, enumerate: Enumerator)
    requires path != "" && path != "0"
    ensures Excludes([], [Str(path)], enumerate) == Ok(enumerate(Str(path), Str(".php"), Str(""), []))
  {
    var files := enumerate(Str(path), Str(".php"), Str(""), []);
    BareStringBlacklistEntryExpands([], path, enumerate);
    assert Union([], files) == files by {
      MissingDisjoint(files, Keys([]));
      assert [] + Missing(files, Keys([])) == files;
    }
  }

  /** A single bare-string whitelist entry with no whitelisted files includes exactly the enumeration of its directory. */
  lemma BareStringEntryIncluded(path: string, excludes: PhpArray, enumerate: Enumerator)
    requires path != "" && path != "0"
    ensures var included := enumerate(Arr([Entry(IntKey(0), Str(path))]), Str(".php"), Str(""), excludes);
            Includes([Str(path)], [], excludes, enumerate) == Effects(IncludeCalls(Values(included)), None)
  {
    var root := [Entry(IntKey(0), Str(path))];
    MissingDisjoint([], Keys(root));
    assert IncludeRoots(Str(path), []) == root;
    BareStringDefaults(path);
    assert [Str(path)][1..] == [];
  }

  /** When the whitelisted files form a list, the first of them is replaced by the directory. */
  lemma {:induction false} RootsDropFirstWhitelistFile(directory: Value, whitelistFiles: PhpArray)
    requires IsList(whitelistFiles) && |whitelistFiles| > 0
    ensures IncludeRoots(directory, whitelistFiles) == [Entry(IntKey(0), directory)] + whitelistFiles[1..]
  {
    assert IsList([Entry(IntKey(0), directory)]);
    ListUnionDropsLeadingEntries([Entry(IntKey(0), directory)], whitelistFiles);
  }

  function Flatten(parts: seq<seq<Value>>): seq<Value>
  {
    if |parts| == 0 then [] else parts[0] + Flatten(parts[1..])
  }

  lemma IncludeCallsConcat(a: seq<Value>, b: seq<Value>)
    ensures IncludeCalls(a + b) == IncludeCalls(a) + IncludeCalls(b)
  {
  }

  /**
    The files each whitelist entry contributes, entry by entry; a rejected
    entry contributes none.
   */
  function PerEntryFiles(whitelist: seq<Value>, whitelistFiles: PhpArray, excludes: PhpArray, enumerate: Enumerator): (parts: seq<seq<Value>>)
    ensures |parts| == |whitelist|
  {
    if |whitelist| == 0 then []
    else [EntryFiles(whitelist[0], whitelistFiles, excludes, enumerate)] + PerEntryFiles(whitelist[1..], whitelistFiles, excludes, enumerate)
  }

  function EntryFiles(spec: Value, whitelistFiles: PhpArray, excludes: PhpArray, enumerate: Enumerator): seq<Value>
  {
    match FilterDirectoryParams(spec)
    case Ok(s) => Values(WhitelistFiles(s, whitelistFiles, excludes, enumerate))
    case Thrown(_) => []
  }

  /**
    With every whitelist entry accepted, exactly the files the enumerator
    returns are included: entry by entry, each in the enumerator's order,
    and nothing else.
   */
  lemma {:induction false} IncludesFollowEnumeration(whitelist: seq<Value>, whitelistFiles: PhpArray, excludes: PhpArray, enumerate: Enumerator)
    requires AllAccepted(whitelist)
    ensures Includes(whitelist, whitelistFiles, excludes, enumerate)
            == Effects(IncludeCalls(Flatten(PerEntryFiles(whitelist, whitelistFiles, excludes, enumerate))), None)
    decreases |whitelist|
  {
    var perEntry := PerEntryFiles(whitelist, whitelistFiles, excludes, enumerate);
    if |whitelist| > 0 {
      AllAcceptedShift(whitelist);
      IncludesFollowEnumeration(whitelist[1..], whitelistFiles, excludes, enumerate);
      assert perEntry[1..] == PerEntryFiles(whitelist[1..], whitelistFiles, excludes, enumerate);
      IncludeCallsConcat(perEntry[0], Flatten(perEntry[1..]));
    }
  }

  /**
    A rejected whitelist entry ends the loop with its error, after the
    files of every entry before it have already been included.
   */
  lemma {:induction false} IncludesStopAtFirstRejected(whitelist: seq<Value>, whitelistFiles: PhpArray, excludes: PhpArray, enumerate: Enumerator, i: int)
    requires FirstRejected(whitelist, i)
    ensures Includes(whitelist, whitelistFiles, excludes, enumerate)
            == Effects(Includes(whitelist[..i], whitelistFiles, excludes, enumerate).calls, Some(FilterDirectoryParams(whitelist[i]).error))
    decreases i
  {
    if i > 0 {
      var tail := whitelist[1..];
      assert FirstRejected(tail, i - 1) by {
        assert forall j :: 0 <= j < i - 1 ==> tail[j] == whitelist[j + 1];
      }
      IncludesStopAtFirstRejected(tail, whitelistFiles, excludes, enumerate, i - 1);
      assert whitelist[..i][1..] == tail[..i - 1];
      assert whitelist[..i][0] == whitelist[0];
      IncludesCons(whitelist, whitelistFiles, excludes, enumerate);
      IncludesCons(whitelist[..i], whitelistFiles, excludes, enumerate);
    }
  }

  /** An accepted first entry includes its files, then the loop goes on with the rest. */
  lemma IncludesCons(whitelist: seq<Value>, whitelistFiles: PhpArray, excludes: PhpArray, enumerate: Enumerator)
    requires |whitelist| > 0 && FilterDirectoryParams(whitelist[0]).Ok?
    ensures var rest := Includes(whitelist[1..], whitelistFiles, excludes, enumerate);
            Includes(whitelist, whitelistFiles, excludes, enumerate)
            == Effects(IncludeCalls(EntryFiles(whitelist[0], whitelistFiles, excludes, enumerate)) + rest.calls, rest.thrown)
  {
  }
}

=== FILE: trace.dfy ===
/**
  What the listener does to its collaborators, recorded as a trace of calls:
  the coverage engine (`filter`, `includeFile`, `start`, `stop`), the report
  renderers (`process`) and the console (`writeln`).
 */
module Trace {
  import opened Php
  import opened DirectorySpec

  /** A line written to the console: a fixed message or a rendered text report. */
  datatype Line = Message(text: string) | RenderedReport(format: string)

  datatype Call =
    | Filter                                        // CodeCoverage::filter()
    | IncludeFile(path: Value)                      // Filter::includeFile($file)
    | Start(id: string)                             // CodeCoverage::start($name)
    | Stop                                          // CodeCoverage::stop()
    | ProcessText(format: string, showColors: bool) // Report\Text::process($coverage, $decorated)
    | Process(format: string, target: Value)        // any other report's process($coverage, $target)
    | WriteLn(line: Line)                           // ConsoleIO::writeln($line)

  /** The calls a handler made, and the configuration error that ended it, if one did. */
  datatype Effects = Effects(calls: seq<Call>, thrown: Option<ConfigurationException>)

  function IncludeCalls(paths: seq<Value>): (calls: seq<Call>)
    ensures |calls| == |paths|
    ensures forall i :: 0 <= i < |paths| ==> calls[i] == IncludeFile(paths[i])
  {
    seq(|paths|, i requires 0 <= i < |paths| => IncludeFile(paths[i]))
  }
}
